=== FILE: README.md ===
# Curve editor geometry in Dafny

This project models the numeric core of two small interactive curve editors:

- The rational Bézier editor (`playground/bezier/bezier.js`). It evaluates
  weighted Bézier curves with de Casteljau's algorithm and draws the levels
  of that algorithm as construction lines.
- The rational B-spline editor (`playground/bspline/bspline.js`). It builds a
  knot vector from the point count, the degree and two clamp switches
  (`updateKnots`). It searches for the knot span and evaluates the Cox–de Boor
  basis functions. It forms the weight-normalised curve point, with shortcuts
  at clamped ends (`evaluateBSpline`). It draws the level pyramid of de
  Boor's algorithm as construction lines (`drawConstructionLines`). The file
  also defines an in-place `deBoor`, which nothing in the editor calls; the
  model covers it too.
- The B-spline editor has a zoom-and-pan viewport: the wheel zooms about the
  cursor and a middle-button drag pans. The Bézier editor has the same wheel
  zoom, which does nothing while it has no points, and no pan. In both
  editors gestures edit the control points: add, delete, move, and drag the
  weight circle.

Coordinates are exact reals (`real`). Each division by zero that would give
`NaN` or `Infinity` in the editors is an explicit failure `Err(ZeroDivisor)`.
A parameter outside the curve's domain gives `Err(OutOfRange)`. Too few
control points give `Err(TooFewPoints)`, and an empty knot vector gives
`Err(NoKnots)`. These are the cases where the editors return `null` or
produce a `NaN` point.

Files:
- `results.dfy`: the `Option` and `Result` types and the failure kinds.
- `geometry.dfy`: points, linear blending, sums, and facts of real arithmetic.
- `bezier.dfy`: weighted de Casteljau evaluation, its levels, and its properties.
- `knots.dfy`: the generated knot vector.
- `bspline.dfy`: span search, basis functions, and rational evaluation.
- `deboor.dfy`: de Boor's pyramid and the in-place algorithm.
- `viewport.dfy`: transform, inverse, wheel zoom, and pan.
- `editing.dfy`: the editing gestures and the invariants they keep.

## Model

| member | source | states |
|---|---|---|
| `Bezier.EffectiveWeight` | playground/bezier/bezier.js:43-44 | an absent or zero weight counts as 1, any other weight is used as it is, and the weight used is never 0 |
| `Bezier.Step` | playground/bezier/bezier.js:40-56 | one level succeeds exactly when no neighbour pair has combined weight 0; it then has one point fewer, and point `i` interpolates points `i` and `i + 1` |
| `Bezier.DeCasteljau` | playground/bezier/bezier.js:38-58 | the recursion fails only on a zero combined weight, and a point computed from two or more points carries its combined weight |
| `Bezier.ConstructionLevels` | playground/bezier/bezier.js:63-84 | the drawn levels start with the control polygon and each is the `Step` of the one before. The last level steps to the single curve point. Building the levels fails exactly when the curve point is undefined |
| `Bezier.MixInRange` | playground/bezier/bezier.js:47-49 | with positive weights and `t` in `[0, 1]` the combined weight is positive and between the two weights, and each new coordinate lies between the old ones |
| `Bezier.MixScaled` | playground/bezier/bezier.js:47-49 | scaling both weights by a non-zero `c` scales the combined weight by `c` and leaves both new coordinates unchanged |
| `Bezier.StartsAtFirstPoint` | playground/bezier/bezier.js:38-58 | at `t = 0` the curve point exists and is the first control point, for any weights |
| `Bezier.EndsAtLastPoint` | playground/bezier/bezier.js:38-58 | at `t = 1` the curve point exists and is the last control point, for any weights |
| `Bezier.EqualWeightsLinear` | playground/bezier/bezier.js:47-49 | two points of equal weight interpolate linearly |
| `Bezier.QuadraticMidpoint` | playground/bezier/bezier.js:38-58 | the unit-weight quadratic through (0,0), (1,2), (2,0) passes through (1,1) at `t = 1/2` |
| `Bezier.InterpolateBetween` | playground/bezier/bezier.js:47-49 | with positive weights and `0 <= t <= 1` the new point and its weight stay between those of its two neighbours |
| `Bezier.StepInside` | playground/bezier/bezier.js:40-56 | with positive weights one level stays inside any bounds holding the previous level |
| `Bezier.ConvexHull` | playground/bezier/bezier.js:38-58 | with positive weights and `t` in `[0, 1]` the curve point exists and lies, with its weight, inside any bounds of the control points and their weights |
| `Bezier.ScaledEffectiveWeight` | playground/bezier/bezier.js:43-44 | scaling a weight by a non-zero `c` scales the weight used by `c` |
| `Bezier.ReweightedInterpolate` | playground/bezier/bezier.js:47-55 | two points with `c` times the weights interpolate to the same position with `c` times the weight |
| `Bezier.StepScaled` | playground/bezier/bezier.js:40-56 | scaling all weights by a non-zero `c` commutes with one level and does not change whether it succeeds |
| `Bezier.WeightScaleInvariance` | playground/bezier/bezier.js:38-58 | scaling all weights by a non-zero `c` leaves the curve point unchanged and scales its weight by `c` |
| `Bezier.MissingWeightIsUnit` | playground/bezier/bezier.js:43-44 | writing absent or zero weights as 1 changes neither whether the curve point exists nor where it is |
| `Knots.BuildKnots` | playground/bspline/bspline.js:139-179 | the knot vector has `count + degree + 1` knots, or `2 degree + 2` when both ends are clamped and there are too few points. It is undefined only for 0/0: no clamping, no points, degree 0 |
| `Knots.KnotsNonDecreasing` | playground/bspline/bspline.js:139-179 | every generated knot vector is non-decreasing |
| `Knots.KnotsInUnit` | playground/bspline/bspline.js:139-179 | every generated knot lies in `[0, 1]` |
| `Knots.KnotsFromZeroToOne` | playground/bspline/bspline.js:139-179 | with at least one point the knot vector exists, starts at 0 and ends at 1 |
| `Knots.ClampedMultiplicity` | playground/bspline/bspline.js:146-172 | a clamped end repeats 0 (or 1) exactly `degree + 1` times |
| `Knots.ClampedBothEnds` | playground/bspline/bspline.js:146-156 | with both ends clamped, the knot after the leading zeros is positive and the knot before the trailing ones is below 1 |
| `Knots.UniformKnots` | playground/bspline/bspline.js:173-179 | without clamping, knot `i` is `i / (count + degree)` |
| `Knots.ClampedBothGrid` | playground/bspline/bspline.js:146-156 | with both ends clamped, the knots from index `degree` to `count` are the grid `(i - degree) / (count - degree)` |
| `Knots.ClampedStartGrid` | playground/bspline/bspline.js:157-165 | with only the start clamped, the knots from index `degree` on are `(i - degree) / count` |
| `Knots.ClampedEndGrid` | playground/bspline/bspline.js:166-172 | with only the end clamped, the first `count + 1` knots are `i / count` |
| `Knots.DomainKnots` | playground/bspline/bspline.js:139-179 | in every clamping mode the domain knots `degree .. count` lie on an evenly spaced grid that starts at 0 |
| `Knots.DomainSpansNonEmpty` | playground/bspline/bspline.js:139-179 | every knot span inside the evaluation domain has positive length |
| `Knots.DomainEnd` | playground/bspline/bspline.js:139-179 | the domain ends at the last knot when the end is clamped; otherwise, for degree at least 1, the next knot lies strictly beyond the end of the domain |
| `Knots.ClampedCubicKnots` | playground/bspline/bspline.js:146-156 | four cubic points clamped at both ends give `[0,0,0,0,1,1,1,1]` |
| `Knots.UniformQuadraticKnots` | playground/bspline/bspline.js:173-179 | five quadratic points without clamping give `i / 7` for `i = 0 .. 7` |
| `BSpline.SpanFrom` | playground/bspline/bspline.js:394-399 | the search stops at the first index whose right knot is at least `u`, or at the last span when there is none; every knot it passed is below `u` |
| `BSpline.Span` | playground/bspline/bspline.js:394-399 | the span lies in `[degree, count)`, every skipped right knot is below `u`, and before the last span `u` is at most the right knot |
| `BSpline.SpanBrackets` | playground/bspline/bspline.js:394-404 | inside the domain `[knots[degree], knots[count]]` the chosen span brackets `u` |
| `BSpline.BasisLocal` | playground/bspline/bspline.js:356-374 | over non-decreasing knots every Cox–de Boor basis value is non-negative and vanishes outside `[knots[i], knots[i + k + 1])` |
| `BSpline.BasisPositive` | playground/bspline/bspline.js:356-374 | wherever `u` lies in a non-empty span `[knots[j], knots[j + 1])` some degree-`k` basis function starting in `j - k .. j` is positive; if `u` is the knot `knots[j]` and `k >= 1`, one starting before `j` is |
| `BSpline.Rational` | playground/bspline/bspline.js:419-431 | the weighted combination fails exactly when the weighted basis values sum to 0 |
| `BSpline.FactorsSumToOne` | playground/bspline/bspline.js:419-426 | the normalised factors sum to 1 |
| `BSpline.DotBounds` | playground/bspline/bspline.js:424-429 | with non-negative factors the accumulated coordinate lies between `lo` and `hi` times the factor sum |
| `BSpline.RationalCoincident` | playground/bspline/bspline.js:419-431 | when all active points coincide the combination is that point |
| `BSpline.RationalScaled` | playground/bspline/bspline.js:419-431 | scaling every active weight by a non-zero `c` changes neither success nor the point |
| `BSpline.RationalInHull` | playground/bspline/bspline.js:419-431 | with non-negative basis values and positive weights the point lies in any box of the active points |
| `BSpline.EvaluateBSpline` | playground/bspline/bspline.js:376-432 | too few points fail first. At a clamped start the result is the first point; at a clamped end, the last. The result is out of range exactly when `u` lies outside `[knots[degree], knots[count]]` otherwise. No other failure is `NoKnots` |
| `BSpline.EvaluateScaled` | playground/bspline/bspline.js:376-432 | scaling every weight by the same non-zero `c` leaves the whole evaluation unchanged |
| `BSpline.EvaluateCoincident` | playground/bspline/bspline.js:376-432 | when all control points coincide every curve point is that point |
| `BSpline.EvaluateInHull` | playground/bspline/bspline.js:376-432 | over non-decreasing knots with positive weights every curve point lies in any box holding the control points |
| `BSpline.EvaluateDefined` | playground/bspline/bspline.js:393-431 | over non-decreasing knots with non-empty domain spans and positive weights, a curve of degree at least 1 has a point at every `u` of the domain, the right end included when a later knot lies beyond it or the clamped-end shortcut applies |
| `BSpline.GeneratedKnotsDefined` | playground/bspline/bspline.js:393-431 | with the generated knots, positive weights and degree at least 1, the curve has a point at every `u` in `[knots[degree], knots[count]]` |
| `BSpline.DegreeZeroAtKnots` | playground/bspline/bspline.js:356-359 | at degree 0 the curve has a point at the first knot and inside a span, but none at an interior knot, nor at the last knot unless the end is clamped: two unit-weight points over `[0, 1/2, 1]` give a point at 0 and 1/4, `ZeroDivisor` at 1/2 and 1, and the last point at 1 with a clamped end |
| `BSpline.ClampedEndpoints` | playground/bspline/bspline.js:379-391 | with the generated knots, a clamped start gives the first point at `u = 0` and a clamped end gives the last point at `u = 1` |
| `BSpline.RationalPair` | playground/bspline/bspline.js:419-431 | two unit-weight points with basis values `1 - t`, `t` combine to the linear blend |
| `BSpline.LinearBasis` | playground/bspline/bspline.js:356-374 | over knots `[0, 0, 1, 1]` the two degree-1 basis values at an interior `u` are `1 - u` and `u` |
| `BSpline.LinearPrecision` | playground/bspline/bspline.js:376-432 | a clamped degree-1 curve through two unit-weight points is the straight segment between them, for every `u` in `[0, 1]` |
| `DeBoor.NextLevel` | playground/bspline/bspline.js:551-560 | each level has one entry fewer than the level below |
| `DeBoor.Levels` | playground/bspline/bspline.js:541-563 | the pyramid has `r + 1` levels starting with the active points, level `l` has `degree + 1 - l` entries, and it fails exactly when some level has a zero blend denominator |
| `DeBoor.ConstructionTrace` | playground/bspline/bspline.js:522-563 | the construction lines fail with `OutOfRange` exactly outside `[knots[degree], knots[count]]`, otherwise they are the full pyramid of `degree + 1` levels over the active points of `Span` |
| `DeBoor.BlendFactor` | playground/bspline/bspline.js:343-344 | the in-place factor, indexed by `j` and round `r`, is the pyramid factor `Alpha` of entry `j - r` |
| `DeBoor.BlendRound` | playground/bspline/bspline.js:342-350 | one descending in-place round turns the top entries of the array into the next pyramid level |
| `DeBoor.InPlaceRounds` | playground/bspline/bspline.js:340-353 | the in-place rounds end with the pyramid's apex in the last slot, and fail exactly when the pyramid does |
| `DeBoor.DeBoor` | playground/bspline/bspline.js:311-354 | no knots and too few points fail first. Otherwise the in-place algorithm succeeds exactly when the construction trace does, returns its apex, and fails the same way |
| `DeBoor.DenominatorPositive` | playground/bspline/bspline.js:343-344 | over non-decreasing knots with a non-empty span every blend denominator is positive |
| `DeBoor.LevelsDefined` | playground/bspline/bspline.js:550-563 | over non-decreasing knots with a non-empty span `[knots[span], knots[span + 1])`, `Levels` succeeds at every level up to `r`, for any active points and any `u` |
| `DeBoor.AlphaInUnit` | playground/bspline/bspline.js:554-555 | with `u` inside the span every blend factor lies in `[0, 1]` |
| `DeBoor.NextLevelInBox` | playground/bspline/bspline.js:553-560 | a level built from points in a box stays in the box |
| `DeBoor.LevelsInBox` | playground/bspline/bspline.js:550-563 | every entry of every level stays in any box holding the active points |
| `DeBoor.TraceInHull` | playground/bspline/bspline.js:522-563 | over non-decreasing knots the whole construction trace lies in any box holding the control points |
| `DeBoor.GeneratedKnotsTrace` | playground/bspline/bspline.js:522-563 | with the generated knots the construction trace exists at every `u` of the domain |
| `DeBoor.TraceCoincident` | playground/bspline/bspline.js:522-563 | when all control points coincide every entry of the trace is that point |
| `Viewport.InverseOfTransform` | playground/bspline/bspline.js:448-460 | mapping a scene point to the screen and back returns it |
| `Viewport.TransformOfInverse` | playground/bspline/bspline.js:448-460 | mapping a screen point to the scene and back returns it |
| `Viewport.ClampScale` | playground/bspline/bspline.js:105 | the scale is clamped to `[0.1, 10]` and left alone inside it |
| `Viewport.Zoom` | playground/bspline/bspline.js:94-112 | the zoomed scale stays in `[0.1, 10]` |
| `Viewport.ZoomKeepsCursor` | playground/bspline/bspline.js:99-109 | the scene point under the cursor is the same before and after the zoom |
| `Viewport.ZoomDirection` | playground/bspline/bspline.js:104-105 | inside the bounds, a positive `deltaY` never enlarges and any other never shrinks the scale |
| `Viewport.BezierWheel` | playground/bezier/bezier.js:293-311 | the Bézier editor ignores the wheel without control points, and otherwise zooms within the bounds about the cursor |
| `Viewport.Pan` | playground/bspline/bspline.js:121-128 | panning keeps the scale |
| `Viewport.PanMovesImage` | playground/bspline/bspline.js:264-270 | panning moves the image of every scene point by exactly the mouse movement |
| `Viewport.ApplyAll` | playground/bspline/bspline.js:93-128 | any sequence of zooms and pans keeps the scale within the bounds, so the inverse transform never divides by zero |
| `Viewport.InitialViewInBounds` | playground/bspline/bspline.js:9-10 | the initial view has scale 1 and offset 0: it is in bounds and the identity |
| `Editing.DraggedWeight` | playground/bspline/bspline.js:301-306 | the dragged weight is at least 0.1, its circle of radius `30 w` reaches the cursor, and either the circle passes through the cursor or the weight is the minimum |
| `Editing.WeightCircleFollowsCursor` | playground/bspline/bspline.js:305 | from cursor distance 3 on the circle passes through the cursor; closer than that, the weight is 0.1 |
| `Editing.DraggedWeightMonotone` | playground/bezier/bezier.js:284-288 | dragging farther never gives a smaller weight |
| `Editing.SplineEdit` | playground/bspline/bspline.js:186-306 | a click adds a point with weight 1 at the end. A delete removes exactly the indexed point. A move changes only that point's position, and a weight drag sets only its weight, to `DraggedWeight(distance)`. Positive weights stay positive |
| `Editing.SplineEdits` | playground/bspline/bspline.js:296-306 | any sequence of edits keeps all weights positive |
| `Editing.RemoveUndoesAdd` | playground/bspline/bspline.js:237 | deleting the point just added restores the list |
| `Editing.MoveBack` | playground/bspline/bspline.js:296-298 | moving a point back to where it was restores the list |
| `Editing.EditedCurveInHull` | playground/bspline/bspline.js:647-667 | after any edits, the curve drawn with the generated knots stays in every box holding the edited points |
| `Editing.BezierEdit` | playground/bezier/bezier.js:218-288 | a click adds a point with weight 1. A delete removes exactly the indexed point. A move keeps the weight, absent or not. A weight drag sets the weight to `Some(DraggedWeight(distance))`, at least 0.1. Positive weights stay positive |
| `Editing.BezierEdits` | playground/bezier/bezier.js:280-288 | any sequence of edits keeps all weights positive |
| `Editing.EditedBezierInHull` | playground/bezier/bezier.js:179-190 | after any edits the editor can evaluate the curve at every `t` in `[0, 1]`, and the point lies in the box of the control points |

## Left out

- Drawing and hit testing are not modelled. This covers the canvas, colours,
  labels, the nearest-point search, and the hover cursor.
- Events are reduced to their effect. Mouse and wheel events, the
  canvas-to-client scaling and `preventDefault` are not modelled. A gesture
  is its effect on the view or on the point list. The hit test that picks the
  index is not modelled, so an index naming no point leaves the list as it
  is.
- Animation timing is not modelled (`requestAnimationFrame` and progress
  updates). Evaluation takes the parameter as an input.
- Text parsing and formatting are not modelled: the point and knot input
  boxes, `toFixed`, and `parseFloat`. The model only keeps their
  consequence that a point entered as text in the Bézier editor has no
  weight, which `EffectiveWeight` treats as 1.
- The knot vector is always the generated one or a parameter that satisfies
  `KnotsFit` (enough knots for every index the evaluation reads). A knot
  vector typed by the user with too few entries would read `undefined` in
  the editor. That case is excluded by a precondition of `EvaluateBSpline`
  and `DeBoor`.
- IEEE floating point is not modelled. The `Number.EPSILON` comparisons of
  the clamped-end shortcuts become exact equality, and `Math.hypot` is not
  computed: the cursor distance of a weight drag is a parameter of
  `Editing.Reweight`.
- `Bezier.DeCasteljau` requires at least one point. With none, the editor
  recursion never terminates, and the editor only calls it with points
  present.
- Where a denominator is zero the editors produce `NaN` or `Infinity` and
  keep going. The model returns `Err(ZeroDivisor)` instead. In de Boor's
  pyramid the whole level is checked before it is blended, and an `Err`
  from `Levels` drops the entire pyramid. That includes the valid lower
  levels, which the editor would still draw next to the `NaN` ones. The
  in-place `deBoor` fails in the same way for a whole round.
- `BSpline.EvaluateBSpline`: a point is promised only for degree at least 1
  (`EvaluateDefined`, `GeneratedKnotsDefined`). At degree 0 the source has
  no point at an interior knot, nor at the last knot unless the end is
  clamped: the span search picks the span ending at `u`, where the
  half-open indicator is 0. `DegreeZeroAtKnots` shows this with two
  unit-weight points and the knots `[0, 1/2, 1]`: `u = 1/2` and, without a
  clamped end, `u = 1` give `ZeroDivisor`, while `u = 0` has a point.
  The model also does not prove that the result agrees with the in-place
  `deBoor`, which uses positions only and ignores weights, as the editor
  does. The two agree in exact arithmetic only for unit weights, degree at
  least 1 and no repeated knot inside the domain. Where the active basis
  values sum to 0 they differ: at degree 0 at a knot, or at a repeated
  interior knot such as `u = 1/2` over `[0, 0, 1/2, 1/2, 1, 1]` at degree 1,
  the pyramid still gives a point while `evaluateBSpline` gives `NaN`.
  Nor does the model prove that the basis values sum to 1 (partition of
  unity). Both need the full knot-interval induction, which is not part of
  this model. `EvaluateBSpline` and `DeBoor` are related to their own
  partners instead: hull, scaling, coincident points, end points and, for
  `EvaluateBSpline`, existence of the point.
- The Bézier editor's second right-click branch (lines 245-254 of
  `playground/bezier/bezier.js`) is unreachable after the first one returns.
  It is covered by the same `Remove` edit.
- `Bezier.DeCasteljau`: its own contract states only the failure kind and
  the carried weight. Where the point lies is stated by its partner lemmas
  `StartsAtFirstPoint`, `EndsAtLastPoint`, `ConvexHull` and
  `WeightScaleInvariance`.
- `DeBoor.NextLevel`: its own contract states only the length of a level.
  The entries are stated by `NextLevelAt`, `NextLevelInBox` and `BlendRound`.
- `Editing.SplineEdits`, `Editing.BezierEdits`: state only the weight
  invariant across a sequence of edits. The per-edit content guarantees
  live on `SplineEdit` and `BezierEdit`.
- The numerical-methods scripts (`Chapter 2`, `Chapter 3`, `Chapter 7`) are
  not part of this model.

=== FILE: bezier.dfy ===
/** Rational (weighted) Bezier curves evaluated with de Casteljau's
    algorithm, as done by the Bezier editor (playground/bezier/bezier.js). */
module Bezier {
  import opened Results
  import opened Geometry

  /** A control point of the Bezier editor. Points entered through the
      coordinate inputs are stored without a weight. */
  datatype Node = Node(x: real, y: real, weight: Option<real>)

  /** The weight used by the interpolation: an absent or zero weight counts as 1. */
  function EffectiveWeight(p: Node): (w: real)
    ensures w != 0.0
    ensures p.weight == None || p.weight == Some(0.0) ==> w == 1.0
    ensures p.weight.Some? && p.weight.value != 0.0 ==> w == p.weight.value
  {
    if p.weight.Some? && p.weight.value != 0.0 then p.weight.value else 1.0
  }

  /** `(1 - t) * wa + t * wb`: the weight of the point that replaces two
      neighbours of weights `wa` and `wb`. */
  function Combine(wa: real, wb: real, t: real): real
  {
    (1.0 - t) * wa + t * wb
  }

  /** One coordinate of the weighted interpolation of `u` (weight `wa`) and
      `v` (weight `wb`). */
  function Mix(wa: real, wb: real, t: real, u: real, v: real): real
    requires Combine(wa, wb, t) != 0.0
  {
    ((1.0 - t) * wa * u + t * wb * v) / Combine(wa, wb, t)
  }

  function CombinedWeight(a: Node, b: Node, t: real): real
  {
    Combine(EffectiveWeight(a), EffectiveWeight(b), t)
  }

  /** Weighted interpolation of two neighbours; the new point carries the
      combined weight on to the next level. */
  function Interpolate(a: Node, b: Node, t: real): (r: Node)
    requires CombinedWeight(a, b, t) != 0.0
    ensures r.weight == Some(CombinedWeight(a, b, t))
    ensures EffectiveWeight(r) == CombinedWeight(a, b, t)
  {
    var wa, wb := EffectiveWeight(a), EffectiveWeight(b);
    Node(Mix(wa, wb, t, a.x, b.x), Mix(wa, wb, t, a.y, b.y), Some(Combine(wa, wb, t)))
  }

  /** No neighbour pair of `ps` has a zero combined weight at `t`. */
  predicate StepDefined(ps: seq<Node>, t: real)
  {
    forall i :: 0 <= i < |ps| - 1 ==> CombinedWeight(ps[i], ps[i + 1], t) != 0.0
  }

  /** One de Casteljau level: every neighbour pair collapses into one point. */
  function Step(ps: seq<Node>, t: real): (r: Result<seq<Node>>)
    requires |ps| >= 2
    ensures r.Ok? <==> StepDefined(ps, t)
    ensures r.Err? ==> r.failure == ZeroDivisor
    ensures r.Ok? ==> |r.value| == |ps| - 1
    ensures r.Ok? ==> forall i :: 0 <= i < |r.value| ==> r.value[i] == Interpolate(ps[i], ps[i + 1], t)
  {
    if StepDefined(ps, t) then
      Ok(seq(|ps| - 1, i requires 0 <= i < |ps| - 1 => Interpolate(ps[i], ps[i + 1], t)))
    else
      Err(ZeroDivisor)
  }

  /** The curve point at `t`: repeat `Step` until one point remains. */
  function DeCasteljau(ps: seq<Node>, t: real): (r: Result<Node>)
    requires |ps| >= 1
    ensures r.Err? ==> r.failure == ZeroDivisor
    ensures r.Ok? && |ps| >= 2 ==> r.value.weight == Some(EffectiveWeight(r.value))
    decreases |ps|
  {
    if |ps| == 1 then
      Ok(ps[0])
    else
      match Step(ps, t)
      case Err(f) => Err(f)
      case Ok(next) => DeCasteljau(next, t)
  }

  /** The construction levels drawn for parameter `t`: the control polygon
      first, then every intermediate level down to two points. */
  method ConstructionLevels(points: seq<Node>, t: real) returns (r: Result<seq<seq<Node>>>)
    ensures |points| <= 1 ==> r == Ok([])
    ensures |points| >= 1 ==> (r.Ok? <==> DeCasteljau(points, t).Ok?)
    ensures r.Err? ==> r.failure == ZeroDivisor
    ensures r.Ok? && |points| >= 1 ==> |r.value| == |points| - 1
    ensures r.Ok? ==> forall k :: 0 <= k < |r.value| ==> |r.value[k]| == |points| - k
    ensures r.Ok? && |points| >= 2 ==> r.value[0] == points
    ensures r.Ok? ==> forall k :: 0 <= k < |r.value| - 1 ==> Step(r.value[k], t) == Ok(r.value[k + 1])
    ensures r.Ok? && |points| >= 2 ==>
              Step(r.value[|r.value| - 1], t) == Ok([DeCasteljau(points, t).value])
  {
    var current := points;
    var levels: seq<seq<Node>> := [];
    while |current| > 1
      invariant |levels| + |current| == |points|
      invariant |points| >= 1 ==> |current| >= 1
      invariant forall k :: 0 <= k < |levels| ==> |levels[k]| == |points| - k
      invariant |levels| == 0 ==> current == points
      invariant |levels| > 0 ==> levels[0] == points
      invariant forall k :: 0 <= k < |levels| - 1 ==> Step(levels[k], t) == Ok(levels[k + 1])
      invariant |levels| > 0 ==> Step(levels[|levels| - 1], t) == Ok(current)
      invariant |current| >= 1 ==> DeCasteljau(current, t) == DeCasteljau(points, t)
      decreases |current|
    {
      levels := levels + [current];
      var next := Step(current, t);
      if next.Err? {
        return Err(next.failure);
      }
      current := next.value;
    }
    if |current| == 1 {
      assert current == [current[0]];
    }
    return Ok(levels);
  }

  // ----- arithmetic of one interpolation -----

  lemma MixAtStart(wa: real, wb: real, u: real, v: real)
    requires wa != 0.0
    ensures Combine(wa, wb, 0.0) == wa && Mix(wa, wb, 0.0, u, v) == u
  {
    MulDiv(u, wa);
  }

  lemma MixAtEnd(wa: real, wb: real, u: real, v: real)
    requires wb != 0.0
    ensures Combine(wa, wb, 1.0) == wb && Mix(wa, wb, 1.0, u, v) == v
  {
    MulDiv(v, wb);
  }

  lemma MixEqualWeights(w: real, t: real, u: real, v: real)
    requires w != 0.0
    ensures Combine(w, w, t) == w && Mix(w, w, t, u, v) == (1.0 - t) * u + t * v
  {
    var m := (1.0 - t) * u + t * v;
    assert (1.0 - t) * w * u + t * w * v == m * w;
    MulDiv(m, w);
  }

  /** With positive weights and 0 <= t <= 1 the combined weight is positive and
      lies between the two weights, and the mixed coordinate lies between `u` and `v`. */
  lemma MixInRange(wa: real, wb: real, t: real, u: real, v: real)
    requires wa > 0.0 && wb > 0.0 && 0.0 <= t <= 1.0
    ensures Combine(wa, wb, t) > 0.0
    ensures Min(wa, wb) <= Combine(wa, wb, t) <= Max(wa, wb)
    ensures Min(u, v) <= Mix(wa, wb, t, u, v) <= Max(u, v)
  {
    var p, q := (1.0 - t) * wa, t * wb;
    MulNonNegative(1.0 - t, wa);
    MulNonNegative(t, wb);
    MixBetween(wa, wb, t);
    assert p * u + q * v == (1.0 - t) * wa * u + t * wb * v;
    WeightedMeanBetween(u, v, p, q);
  }

  /** Scaling both weights by `c` scales the combined weight by `c`. */
  lemma CombineScaled(wa: real, wb: real, t: real, c: real)
    ensures Combine(c * wa, c * wb, t) == c * Combine(wa, wb, t)
  {
  }

  /** With both weights scaled by a nonzero `c`, the combined weight stays
      nonzero and the mixed coordinate does not move. */
  lemma MixScaledOnce(wa: real, wb: real, t: real, c: real, u: real, v: real)
    requires c != 0.0 && Combine(wa, wb, t) != 0.0
    ensures Combine(c * wa, c * wb, t) != 0.0 && Mix(c * wa, c * wb, t, u, v) == Mix(wa, wb, t, u, v)
  {
    var cw := Combine(wa, wb, t);
    CombineScaled(wa, wb, t, c);
    MulNonZero(c, cw);
    var n := (1.0 - t) * wa * u + t * wb * v;
    assert (1.0 - t) * (c * wa) * u + t * (c * wb) * v == c * n;
    CancelFactor(n, cw, c);
  }

  /** Weights `wa'`, `wb'` that are `c` times `wa`, `wb` give `c` times the
      combined weight `w` and the same two coordinates (`u`/`v` and `p`/`q`). */
  lemma MixScaled(wa: real, wb: real, wa': real, wb': real, w: real, t: real, c: real,
                  u: real, v: real, p: real, q: real)
    requires c != 0.0 && wa' == c * wa && wb' == c * wb && w == Combine(wa, wb, t)
    ensures Combine(wa', wb', t) == c * w
    ensures w != 0.0 ==>
              && Combine(wa', wb', t) != 0.0
              && Mix(wa', wb', t, u, v) == Mix(wa, wb, t, u, v)
              && Mix(wa', wb', t, p, q) == Mix(wa, wb, t, p, q)
  {
    CombineScaled(wa, wb, t, c);
    if w != 0.0 {
      MixScaledOnce(wa, wb, t, c, u, v);
      MixScaledOnce(wa, wb, t, c, p, q);
    }
  }

  // ----- evaluation at the ends of the parameter range -----

  /** At t = 0 the curve starts at the first control point, whatever the weights. */
  lemma {:induction false} StartsAtFirstPoint(ps: seq<Node>)
    requires |ps| >= 1
    ensures DeCasteljau(ps, 0.0).Ok?
    ensures DeCasteljau(ps, 0.0).value.x == ps[0].x
    ensures DeCasteljau(ps, 0.0).value.y == ps[0].y
    decreases |ps|
  {
    if |ps| >= 2 {
      forall i | 0 <= i < |ps| - 1
        ensures CombinedWeight(ps[i], ps[i + 1], 0.0) != 0.0
      {
        MixAtStart(EffectiveWeight(ps[i]), EffectiveWeight(ps[i + 1]), ps[i].x, ps[i + 1].x);
      }
      var next := Step(ps, 0.0).value;
      MixAtStart(EffectiveWeight(ps[0]), EffectiveWeight(ps[1]), ps[0].x, ps[1].x);
      MixAtStart(EffectiveWeight(ps[0]), EffectiveWeight(ps[1]), ps[0].y, ps[1].y);
      assert next[0] == Interpolate(ps[0], ps[1], 0.0);
      StartsAtFirstPoint(next);
    }
  }

  /** At t = 1 the curve ends at the last control point, whatever the weights. */
  lemma {:induction false} EndsAtLastPoint(ps: seq<Node>)
    requires |ps| >= 1
    ensures DeCasteljau(ps, 1.0).Ok?
    ensures DeCasteljau(ps, 1.0).value.x == ps[|ps| - 1].x
    ensures DeCasteljau(ps, 1.0).value.y == ps[|ps| - 1].y
    decreases |ps|
  {
    if |ps| >= 2 {
      forall i | 0 <= i < |ps| - 1
        ensures CombinedWeight(ps[i], ps[i + 1], 1.0) != 0.0
      {
        MixAtEnd(EffectiveWeight(ps[i]), EffectiveWeight(ps[i + 1]), ps[i].x, ps[i + 1].x);
      }
      var next := Step(ps, 1.0).value;
      var a, b := ps[|ps| - 2], ps[|ps| - 1];
      MixAtEnd(EffectiveWeight(a), EffectiveWeight(b), a.x, b.x);
      MixAtEnd(EffectiveWeight(a), EffectiveWeight(b), a.y, b.y);
      assert next[|next| - 1] == Interpolate(a, b, 1.0);
      EndsAtLastPoint(next);
    }
  }

  /** Two points of equal weight give plain linear interpolation. */
  lemma EqualWeightsLinear(p0: Node, p1: Node, t: real)
    requires EffectiveWeight(p0) == EffectiveWeight(p1)
    ensures DeCasteljau([p0, p1], t)
         == Ok(Node((1.0 - t) * p0.x + t * p1.x, (1.0 - t) * p0.y + t * p1.y, Some(EffectiveWeight(p0))))
  {
    var w := EffectiveWeight(p0);
    MixEqualWeights(w, t, p0.x, p1.x);
    MixEqualWeights(w, t, p0.y, p1.y);
    var r := Node((1.0 - t) * p0.x + t * p1.x, (1.0 - t) * p0.y + t * p1.y, Some(w));
    assert Interpolate(p0, p1, t) == r;
    assert Step([p0, p1], t).value == [r];
  }

  /** Quadratic example: (0,0), (1,2), (2,0) with unit weights at t = 1/2 is (1,1). */
  lemma QuadraticMidpoint()
    ensures var r := DeCasteljau([Node(0.0, 0.0, Some(1.0)), Node(1.0, 2.0, Some(1.0)), Node(2.0, 0.0, Some(1.0))], 0.5);
            r.Ok? && r.value.x == 1.0 && r.value.y == 1.0
  {
    var ps := [Node(0.0, 0.0, Some(1.0)), Node(1.0, 2.0, Some(1.0)), Node(2.0, 0.0, Some(1.0))];
    var l1 := [Node(0.5, 1.0, Some(1.0)), Node(1.5, 1.0, Some(1.0))];
    EqualWeightsLinear(ps[0], ps[1], 0.5);
    EqualWeightsLinear(ps[1], ps[2], 0.5);
    EqualWeightsLinear(l1[0], l1[1], 0.5);
    assert Step(ps, 0.5).value == l1;
  }

  // ----- convex hull -----

  /** An axis-aligned box for positions together with a range for weights.
      Unlike `Geometry.InBox`, which bounds positions only, this box also
      bounds weights: each de Casteljau level carries its combined weights to
      the next, and a positive lower weight bound is what keeps every level
      defined. */
  datatype Bounds = Bounds(xmin: real, xmax: real, ymin: real, ymax: real, wmin: real, wmax: real)

  predicate Inside(p: Node, b: Bounds)
  {
    && b.xmin <= p.x <= b.xmax
    && b.ymin <= p.y <= b.ymax
    && b.wmin <= EffectiveWeight(p) <= b.wmax
  }

  predicate AllInside(ps: seq<Node>, b: Bounds)
  {
    forall i :: 0 <= i < |ps| ==> Inside(ps[i], b)
  }

  /** With positive weights and 0 <= t <= 1 the combined weight is positive and
      lies between the two weights, and the new point lies between its neighbours. */
  lemma InterpolateBetween(a: Node, b: Node, t: real)
    requires EffectiveWeight(a) > 0.0 && EffectiveWeight(b) > 0.0
    requires 0.0 <= t <= 1.0
    ensures CombinedWeight(a, b, t) > 0.0
    ensures Min(EffectiveWeight(a), EffectiveWeight(b)) <= CombinedWeight(a, b, t) <= Max(EffectiveWeight(a), EffectiveWeight(b))
    ensures Min(a.x, b.x) <= Interpolate(a, b, t).x <= Max(a.x, b.x)
    ensures Min(a.y, b.y) <= Interpolate(a, b, t).y <= Max(a.y, b.y)
  {
    var wa, wb := EffectiveWeight(a), EffectiveWeight(b);
    MixInRange(wa, wb, t, a.x, b.x);
    MixInRange(wa, wb, t, a.y, b.y);
  }

  /** One level keeps every point (and weight) inside the bounds. */
  lemma StepInside(ps: seq<Node>, t: real, b: Bounds)
    requires |ps| >= 2 && b.wmin > 0.0 && 0.0 <= t <= 1.0
    requires AllInside(ps, b)
    ensures Step(ps, t).Ok? && AllInside(Step(ps, t).value, b)
  {
    forall i | 0 <= i < |ps| - 1
      ensures CombinedWeight(ps[i], ps[i + 1], t) > 0.0
      ensures Inside(Interpolate(ps[i], ps[i + 1], t), b)
    {
      InterpolateBetween(ps[i], ps[i + 1], t);
    }
  }

  /** Convex hull property: with positive weights and 0 <= t <= 1 the evaluation
      succeeds and the curve point stays within the bounds of the control points,
      its weight within the bounds of their weights. */
  lemma {:induction false} ConvexHull(ps: seq<Node>, t: real, b: Bounds)
    requires |ps| >= 1 && b.wmin > 0.0 && 0.0 <= t <= 1.0
    requires AllInside(ps, b)
    ensures DeCasteljau(ps, t).Ok? && Inside(DeCasteljau(ps, t).value, b)
    decreases |ps|
  {
    if |ps| >= 2 {
      StepInside(ps, t, b);
      ConvexHull(Step(ps, t).value, t, b);
    }
  }

  // ----- weight scaling -----

  /** `p` with its effective weight multiplied by `c`. */
  function ScaleWeight(p: Node, c: real): Node
  {
    Node(p.x, p.y, Some(c * EffectiveWeight(p)))
  }

  function ScaleWeights(ps: seq<Node>, c: real): (r: seq<Node>)
    ensures |r| == |ps|
    ensures forall i :: 0 <= i < |ps| ==> r[i] == ScaleWeight(ps[i], c)
  {
    seq(|ps|, i requires 0 <= i < |ps| => ScaleWeight(ps[i], c))
  }

  lemma ScaledEffectiveWeight(p: Node, c: real)
    requires c != 0.0
    ensures EffectiveWeight(ScaleWeight(p, c)) == c * EffectiveWeight(p)
  {
    MulNonZero(c, EffectiveWeight(p));
  }

  lemma ScaledInterpolate(a: Node, b: Node, t: real, c: real)
    requires c != 0.0
    ensures CombinedWeight(ScaleWeight(a, c), ScaleWeight(b, c), t) == c * CombinedWeight(a, b, t)
    ensures CombinedWeight(a, b, t) != 0.0 ==>
              Interpolate(ScaleWeight(a, c), ScaleWeight(b, c), t) == ScaleWeight(Interpolate(a, b, t), c)
  {
    ScaledEffectiveWeight(a, c);
    ScaledEffectiveWeight(b, c);
    ReweightedInterpolate(a, b, ScaleWeight(a, c), ScaleWeight(b, c), t, c);
    if CombinedWeight(a, b, t) != 0.0 {
      assert ScaleWeight(Interpolate(a, b, t), c)
             == Node(Interpolate(a, b, t).x, Interpolate(a, b, t).y, Some(c * EffectiveWeight(Interpolate(a, b, t))));
    }
  }

  /** Interpolating `a'`, `b'`, which sit where `a`, `b` sit with `c` times
      their weights, gives the same position with `c` times the weight. */
  lemma ReweightedInterpolate(a: Node, b: Node, a': Node, b': Node, t: real, c: real)
    requires c != 0.0
    requires a'.x == a.x && a'.y == a.y && b'.x == b.x && b'.y == b.y
    requires EffectiveWeight(a') == c * EffectiveWeight(a) && EffectiveWeight(b') == c * EffectiveWeight(b)
    ensures CombinedWeight(a', b', t) == c * CombinedWeight(a, b, t)
    ensures CombinedWeight(a, b, t) != 0.0 ==>
              && CombinedWeight(a', b', t) != 0.0
              && Interpolate(a', b', t).x == Interpolate(a, b, t).x
              && Interpolate(a', b', t).y == Interpolate(a, b, t).y
              && Interpolate(a', b', t).weight == Some(c * EffectiveWeight(Interpolate(a, b, t)))
  {
    // The arithmetic is all in MixScaled; here only equal arguments are matched.
    hide Mix, Combine;
    MixScaled(EffectiveWeight(a), EffectiveWeight(b), EffectiveWeight(a'), EffectiveWeight(b'),
              CombinedWeight(a, b, t), t, c, a.x, b.x, a.y, b.y);
    if CombinedWeight(a, b, t) != 0.0 {
      MixScaled(EffectiveWeight(a), EffectiveWeight(b), EffectiveWeight(a'), EffectiveWeight(b'),
                EffectiveWeight(Interpolate(a, b, t)), t, c, a.x, b.x, a.y, b.y);
      assert Interpolate(a', b', t).weight == Some(CombinedWeight(a', b', t));
      assert CombinedWeight(a', b', t) == Combine(EffectiveWeight(a'), EffectiveWeight(b'), t);
      assert Combine(EffectiveWeight(a'), EffectiveWeight(b'), t) == c * EffectiveWeight(Interpolate(a, b, t));
    }
  }

  lemma StepScaled(ps: seq<Node>, t: real, c: real)
    requires |ps| >= 2 && c != 0.0
    ensures Step(ScaleWeights(ps, c), t).Ok? <==> Step(ps, t).Ok?
    ensures Step(ps, t).Ok? ==> Step(ScaleWeights(ps, c), t).value == ScaleWeights(Step(ps, t).value, c)
  {
    var sp := ScaleWeights(ps, c);
    forall i | 0 <= i < |ps| - 1
      ensures CombinedWeight(sp[i], sp[i + 1], t) == c * CombinedWeight(ps[i], ps[i + 1], t)
      ensures CombinedWeight(ps[i], ps[i + 1], t) != 0.0 ==>
                Interpolate(sp[i], sp[i + 1], t) == ScaleWeight(Interpolate(ps[i], ps[i + 1], t), c)
    {
      ScaledInterpolate(ps[i], ps[i + 1], t, c);
    }
    forall i | 0 <= i < |ps| - 1
      ensures CombinedWeight(sp[i], sp[i + 1], t) != 0.0 <==> CombinedWeight(ps[i], ps[i + 1], t) != 0.0
    {
      if CombinedWeight(ps[i], ps[i + 1], t) != 0.0 {
        MulNonZero(c, CombinedWeight(ps[i], ps[i + 1], t));
      }
    }
    assert StepDefined(sp, t) <==> StepDefined(ps, t);
    if Step(ps, t).Ok? {
      var l, r := Step(sp, t).value, ScaleWeights(Step(ps, t).value, c);
      assert |l| == |r|;
      assert forall i :: 0 <= i < |l| ==> l[i] == r[i];
    }
  }

  /** Multiplying every weight by the same non-zero `c` leaves the curve point
      unchanged and multiplies its weight by `c`. */
  lemma {:induction false} WeightScaleInvariance(ps: seq<Node>, t: real, c: real)
    requires |ps| >= 1 && c != 0.0
    ensures DeCasteljau(ScaleWeights(ps, c), t).Ok? <==> DeCasteljau(ps, t).Ok?
    ensures DeCasteljau(ps, t).Ok? ==>
              var r, s := DeCasteljau(ps, t).value, DeCasteljau(ScaleWeights(ps, c), t).value;
              s.x == r.x && s.y == r.y && EffectiveWeight(s) == c * EffectiveWeight(r)
    decreases |ps|
  {
    if |ps| == 1 {
      assert ScaleWeights(ps, c) == [ScaleWeight(ps[0], c)];
      ScaledEffectiveWeight(ps[0], c);
    } else {
      StepScaled(ps, t, c);
      if Step(ps, t).Ok? {
        WeightScaleInvariance(Step(ps, t).value, t, c);
      }
    }
  }

  /** Writing every absent or zero weight explicitly as 1.0. */
  function DefaultWeights(ps: seq<Node>): (r: seq<Node>)
    ensures |r| == |ps|
  {
    seq(|ps|, i requires 0 <= i < |ps| =>
      if ps[i].weight == None || ps[i].weight == Some(0.0) then Node(ps[i].x, ps[i].y, Some(1.0)) else ps[i])
  }

  /** A missing or zero weight behaves exactly like weight 1. */
  lemma MissingWeightIsUnit(ps: seq<Node>, t: real)
    requires |ps| >= 1
    ensures forall i :: 0 <= i < |ps| ==> EffectiveWeight(DefaultWeights(ps)[i]) == EffectiveWeight(ps[i])
    ensures DeCasteljau(DefaultWeights(ps), t).Ok? <==> DeCasteljau(ps, t).Ok?
    ensures DeCasteljau(ps, t).Ok? ==>
              DeCasteljau(DefaultWeights(ps), t).value.x == DeCasteljau(ps, t).value.x &&
              DeCasteljau(DefaultWeights(ps), t).value.y == DeCasteljau(ps, t).value.y
  {
    var d, s := DefaultWeights(ps), ScaleWeights(ps, 1.0);
    assert forall i :: 0 <= i < |ps| ==> d[i] == s[i];
    assert d == s;
    WeightScaleInvariance(ps, t, 1.0);
  }
}

=== FILE: bspline.dfy ===
/** Rational B-spline evaluation of the B-spline editor
    (playground/bspline/bspline.js): knot-span search, the Cox-de Boor basis
    functions and the weight-normalised combination of the active control
    points. */
module BSpline {
  import opened Results
  import opened Geometry
  import opened Knots

  /** A control point of the B-spline editor; new points get weight 1. */
  datatype ControlPoint = ControlPoint(x: real, y: real, weight: real)
  {
    function Position(): Vec
    {
      Vec(x, y)
    }
  }

  // ----- knot span -----

  /** The span search started at `s`: the first index `span >= s` with
      `u <= knots[span + 1]`, or `count - 1` when there is none. */
  function SpanFrom(s: nat, count: nat, u: real, knots: seq<real>): (span: nat)
    requires s < count <= |knots|
    ensures s <= span < count
    ensures forall j :: s < j <= span ==> knots[j] < u
    ensures span < count - 1 ==> u <= knots[span + 1]
    decreases count - s
  {
    if s == count - 1 || u <= knots[s + 1] then s else SpanFrom(s + 1, count, u, knots)
  }

  /** The knot span used to evaluate at `u`: the first index from `degree`
      on whose right knot is at least `u`; the last span when none is. */
  function Span(count: nat, degree: nat, u: real, knots: seq<real>): (span: nat)
    requires degree < count <= |knots|
    ensures degree <= span < count
    ensures forall j :: degree < j <= span ==> knots[j] < u
    ensures span < count - 1 ==> u <= knots[span + 1]
  {
    SpanFrom(degree, count, u, knots)
  }

  /** Inside the evaluation domain the chosen span brackets `u`. */
  lemma SpanBrackets(count: nat, degree: nat, u: real, knots: seq<real>)
    requires degree < count < |knots|
    requires knots[degree] <= u <= knots[count]
    ensures var span := Span(count, degree, u, knots);
              knots[span] <= u <= knots[span + 1]
  {
  }

  // ----- basis functions -----

  /** One Cox-de Boor term `num / den * b`, skipped when its knot
      difference `den` is not positive. */
  function Term(num: real, den: real, b: real): real
  {
    if den > 0.0 then num / den * b else 0.0
  }

  /** The B-spline basis function of degree `k` starting at knot `i`,
      evaluated at `u` with the Cox-de Boor recursion. Degree 0 is the
      indicator of the half-open span `[knots[i], knots[i + 1])`. */
  function Basis(u: real, i: nat, k: nat, knots: seq<real>): real
    requires i + k + 1 < |knots|
    decreases k
  {
    if k == 0 then
      if knots[i] <= u < knots[i + 1] then 1.0 else 0.0
    else
      Term(u - knots[i], knots[i + k] - knots[i], Basis(u, i, k - 1, knots))
      + Term(knots[i + k + 1] - u, knots[i + k + 1] - knots[i + 1], Basis(u, i + 1, k - 1, knots))
  }

  lemma TermNonNegative(num: real, den: real, b: real)
    requires b >= 0.0 && (b == 0.0 || num >= 0.0)
    ensures Term(num, den, b) >= 0.0
    ensures b == 0.0 ==> Term(num, den, b) == 0.0
  {
    if den > 0.0 && b != 0.0 {
      assert num / den >= 0.0;
      MulNonNegative(num / den, b);
    }
  }

  lemma TermPositive(num: real, den: real, b: real)
    requires num > 0.0 && den > 0.0 && b > 0.0
    ensures Term(num, den, b) > 0.0
  {
    assert num / den > 0.0;
  }

  /** Over a non-decreasing knot vector every basis function is non-negative
      and vanishes outside its support `[knots[i], knots[i + k + 1])`. */
  lemma {:induction false} BasisLocal(u: real, i: nat, k: nat, knots: seq<real>)
    requires NonDecreasing(knots) && i + k + 1 < |knots|
    ensures Basis(u, i, k, knots) >= 0.0
    ensures u < knots[i] || knots[i + k + 1] <= u ==> Basis(u, i, k, knots) == 0.0
    decreases k
  {
    if k > 0 {
      hide Term;
      BasisLocal(u, i, k - 1, knots);
      BasisLocal(u, i + 1, k - 1, knots);
      assert knots[i] <= knots[i + 1] && knots[i + k] <= knots[i + k + 1];
      TermNonNegative(u - knots[i], knots[i + k] - knots[i], Basis(u, i, k - 1, knots));
      TermNonNegative(knots[i + k + 1] - u, knots[i + k + 1] - knots[i + 1], Basis(u, i + 1, k - 1, knots));
    }
  }

  /** Some basis function is positive wherever `u` lies in a non-empty span
      `[knots[j], knots[j + 1])`: one of degree `k` starting at an index in
      `j - k .. j`, and one starting before `j` when `u` is the knot
      `knots[j]` itself and `k >= 1`. The last case needs one knot fewer to
      the right. */
  lemma {:induction false} BasisPositive(u: real, j: nat, k: nat, knots: seq<real>) returns (i: nat)
    requires NonDecreasing(knots) && k <= j && j + k < |knots| && j + 1 < |knots|
    requires knots[j] <= u < knots[j + 1]
    requires j + k + 1 < |knots| || (k >= 1 && u == knots[j])
    ensures j - k <= i <= j && i + k + 1 < |knots|
    ensures k >= 1 && u == knots[j] ==> i < j
    ensures Basis(u, i, k, knots) > 0.0
    decreases k
  {
    if k == 0 {
      i := j;
    } else {
      var i0 := BasisPositive(u, j, k - 1, knots);
      hide Basis;
      BasisLocal(u, i0, k - 1, knots);
      if knots[i0] < u {
        i := i0;
        RisingTermPositive(u, i, k, knots);
      } else {
        i := i0 - 1;
        FallingTermPositive(u, i, k, knots);
      }
    }
  }

  /** The rising term carries a positive lower-degree value into degree `k`
      once `u` is past the first knot. */
  lemma RisingTermPositive(u: real, i: nat, k: nat, knots: seq<real>)
    requires NonDecreasing(knots) && k >= 1 && i + k + 1 < |knots|
    requires Basis(u, i, k - 1, knots) > 0.0 && knots[i] < u < knots[i + k]
    ensures Basis(u, i, k, knots) > 0.0
  {
    hide Term;
    BasisLocal(u, i + 1, k - 1, knots);
    TermPositive(u - knots[i], knots[i + k] - knots[i], Basis(u, i, k - 1, knots));
    TermNonNegative(knots[i + k + 1] - u, knots[i + k + 1] - knots[i + 1], Basis(u, i + 1, k - 1, knots));
  }

  /** The falling term carries a positive lower-degree value starting at
      `i + 1` into the degree-`k` function starting at `i`. */
  lemma FallingTermPositive(u: real, i: nat, k: nat, knots: seq<real>)
    requires NonDecreasing(knots) && k >= 1 && i + k + 1 < |knots|
    requires Basis(u, i + 1, k - 1, knots) > 0.0 && knots[i + 1] <= u < knots[i + k + 1]
    ensures Basis(u, i, k, knots) > 0.0
  {
    hide Term;
    BasisLocal(u, i, k - 1, knots);
    TermNonNegative(u - knots[i], knots[i + k] - knots[i], Basis(u, i, k - 1, knots));
    TermPositive(knots[i + k + 1] - u, knots[i + k + 1] - knots[i + 1], Basis(u, i + 1, k - 1, knots));
  }

  // ----- rational combination -----

  /** Basis values multiplied by the weights of their control points. */
  function WeightedBasis(active: seq<ControlPoint>, basis: seq<real>): (wb: seq<real>)
    requires |basis| == |active|
    ensures |wb| == |active|
    ensures forall i :: 0 <= i < |wb| ==> wb[i] == basis[i] * active[i].weight
  {
    seq(|active|, i requires 0 <= i < |active| => basis[i] * active[i].weight)
  }

  /** Every weighted basis value divided by their sum `den`. */
  function Factors(wb: seq<real>, den: real): (f: seq<real>)
    requires den != 0.0
    ensures |f| == |wb|
    ensures forall i :: 0 <= i < |f| ==> f[i] == wb[i] / den
  {
    seq(|wb|, i requires 0 <= i < |wb| => wb[i] / den)
  }

  /** `f[0] * v[0] + f[1] * v[1] + ...`, accumulated left to right from 0. */
  function Dot(f: seq<real>, v: seq<real>): real
    requires |f| == |v|
  {
    if |f| == 0 then 0.0 else Dot(f[..|f| - 1], v[..|v| - 1]) + f[|f| - 1] * v[|v| - 1]
  }

  function Xs(ps: seq<ControlPoint>): (r: seq<real>)
    ensures |r| == |ps| && forall i :: 0 <= i < |ps| ==> r[i] == ps[i].x
  {
    seq(|ps|, i requires 0 <= i < |ps| => ps[i].x)
  }

  function Ys(ps: seq<ControlPoint>): (r: seq<real>)
    ensures |r| == |ps| && forall i :: 0 <= i < |ps| ==> r[i] == ps[i].y
  {
    seq(|ps|, i requires 0 <= i < |ps| => ps[i].y)
  }

  /** The weight-normalised combination of the active control points; a zero
      denominator is a failure instead of a NaN point. */
  function Rational(active: seq<ControlPoint>, basis: seq<real>): (r: Result<Vec>)
    requires |basis| == |active|
    ensures r.Err? <==> Sum(WeightedBasis(active, basis)) == 0.0
    ensures r.Err? ==> r.failure == ZeroDivisor
  {
    var wb := WeightedBasis(active, basis);
    if Sum(wb) == 0.0 then
      Err(ZeroDivisor)
    else
      var f := Factors(wb, Sum(wb));
      Ok(Vec(Dot(f, Xs(active)), Dot(f, Ys(active))))
  }

  /** The normalised factors sum to 1. */
  lemma FactorsSumToOne(wb: seq<real>)
    requires Sum(wb) != 0.0
    ensures Sum(Factors(wb, Sum(wb))) == 1.0
  {
    var den := Sum(wb);
    var f := Factors(wb, den);
    forall i | 0 <= i < |wb|
      ensures f[i] == (1.0 / den) * wb[i]
    {
    }
    SumScale(wb, f, 1.0 / den);
  }

  /** Combining copies of one value `c` gives `c` times the sum of the factors. */
  lemma {:induction false} DotConstant(f: seq<real>, v: seq<real>, c: real)
    requires |f| == |v|
    requires forall i :: 0 <= i < |v| ==> v[i] == c
    ensures Dot(f, v) == c * Sum(f)
  {
    if |f| > 0 {
      var n := |f| - 1;
      DotConstant(f[..n], v[..n], c);
      assert f[..n] == f[..|f| - 1];
      assert c * Sum(f) == c * Sum(f[..n]) + c * f[n];
    }
  }

  /** With non-negative factors the combination lies between `lo` and `hi`
      times their sum. */
  lemma {:induction false} DotBounds(f: seq<real>, v: seq<real>, lo: real, hi: real)
    requires |f| == |v|
    requires forall i :: 0 <= i < |f| ==> f[i] >= 0.0
    requires forall i :: 0 <= i < |v| ==> lo <= v[i] <= hi
    ensures lo * Sum(f) <= Dot(f, v) <= hi * Sum(f)
  {
    if |f| > 0 {
      var n := |f| - 1;
      DotBounds(f[..n], v[..n], lo, hi);
      DotBoundsStep(f, v, lo, hi, n);
    }
  }

  /** The inductive step of `DotBounds`: the bound on the first `n` terms
      extends to all `n + 1`. */
  lemma DotBoundsStep(f: seq<real>, v: seq<real>, lo: real, hi: real, n: nat)
    requires |f| == |v| == n + 1
    requires f[n] >= 0.0 && lo <= v[n] <= hi
    requires lo * Sum(f[..n]) <= Dot(f[..n], v[..n]) <= hi * Sum(f[..n])
    ensures lo * Sum(f) <= Dot(f, v) <= hi * Sum(f)
  {
    hide Dot, Sum;
    DotLast(f, v, n);
    BoundStep(lo, hi, Sum(f[..n]), Dot(f[..n], v[..n]), f[n], v[n], Sum(f), Dot(f, v));
  }

  /** The last step of `Dot` and `Sum`, with the last index named `n`. */
  lemma DotLast(f: seq<real>, v: seq<real>, n: nat)
    requires |f| == |v| == n + 1
    ensures Dot(f, v) == Dot(f[..n], v[..n]) + f[n] * v[n]
    ensures Sum(f) == Sum(f[..n]) + f[n]
  {
  }

  /** One more non-negative term `fn * vn` keeps `d` between `lo` and `hi` times `s`. */
  lemma BoundStep(lo: real, hi: real, s: real, d: real, fn: real, vn: real, s': real, d': real)
    requires lo * s <= d <= hi * s && fn >= 0.0 && lo <= vn <= hi
    requires s' == s + fn && d' == d + fn * vn
    ensures lo * s' <= d' <= hi * s'
  {
    MulMonotone(fn, lo, vn);
    MulMonotone(fn, vn, hi);
  }

  /** When every active control point sits at `q`, so does the result. */
  lemma RationalCoincident(active: seq<ControlPoint>, basis: seq<real>, q: Vec)
    requires |basis| == |active|
    requires forall i :: 0 <= i < |active| ==> active[i].Position() == q
    ensures Rational(active, basis).Ok? ==> Rational(active, basis).value == q
  {
    var wb := WeightedBasis(active, basis);
    if Sum(wb) != 0.0 {
      var f := Factors(wb, Sum(wb));
      FactorsSumToOne(wb);
      DotConstant(f, Xs(active), q.x);
      DotConstant(f, Ys(active), q.y);
    }
  }

  /** `c * n` over `c * d` is `n` over `d`. */
  lemma RatioScaled(n': real, d': real, n: real, d: real, c: real)
    requires c != 0.0 && d != 0.0 && n' == c * n && d' == c * d
    ensures d' != 0.0 && n' / d' == n / d
  {
    MulNonZero(c, d);
    CancelFactor(n, d, c);
  }

  /** `ps'` is `ps` with every weight multiplied by `c` and the positions kept. */
  predicate ScaledWeights(ps: seq<ControlPoint>, ps': seq<ControlPoint>, c: real)
  {
    && |ps'| == |ps|
    && forall i :: 0 <= i < |ps| ==> ps'[i].Position() == ps[i].Position() && ps'[i].weight == c * ps[i].weight
  }

  lemma ScaledWeightsSlice(ps: seq<ControlPoint>, ps': seq<ControlPoint>, c: real, lo: nat, hi: nat)
    requires ScaledWeights(ps, ps', c) && lo <= hi <= |ps|
    ensures ScaledWeights(ps[lo..hi], ps'[lo..hi], c)
  {
    forall i | 0 <= i < hi - lo
      ensures ps'[lo..hi][i].Position() == ps[lo..hi][i].Position() && ps'[lo..hi][i].weight == c * ps[lo..hi][i].weight
    {
      assert ps[lo..hi][i] == ps[lo + i] && ps'[lo..hi][i] == ps'[lo + i];
    }
  }

  /** Scaling the weight of every active control point by the same non-zero
      `c` changes neither the success nor the point. */
  lemma RationalScaled(active: seq<ControlPoint>, active': seq<ControlPoint>, basis: seq<real>, c: real)
    requires |basis| == |active| == |active'| && c != 0.0
    requires ScaledWeights(active, active', c)
    ensures Rational(active', basis) == Rational(active, basis)
  {
    var wb, wb' := WeightedBasis(active, basis), WeightedBasis(active', basis);
    WeightedBasisScaled(active, active', basis, c);
    if Sum(wb) != 0.0 {
      FactorsScaled(wb, wb', c);
      assert Xs(active') == Xs(active);
      assert Ys(active') == Ys(active);
    } else {
      assert Sum(wb') == 0.0;
    }
  }

  lemma WeightedBasisScaled(active: seq<ControlPoint>, active': seq<ControlPoint>, basis: seq<real>, c: real)
    requires |basis| == |active| == |active'|
    requires forall i :: 0 <= i < |active| ==> active'[i].weight == c * active[i].weight
    ensures var wb, wb' := WeightedBasis(active, basis), WeightedBasis(active', basis);
              (forall i :: 0 <= i < |wb| ==> wb'[i] == c * wb[i]) && Sum(wb') == c * Sum(wb)
  {
    var wb, wb' := WeightedBasis(active, basis), WeightedBasis(active', basis);
    forall i | 0 <= i < |wb|
      ensures wb'[i] == c * wb[i]
    {
      assert basis[i] * (c * active[i].weight) == c * (basis[i] * active[i].weight);
    }
    SumScale(wb, wb', c);
  }

  lemma FactorsScaled(wb: seq<real>, wb': seq<real>, c: real)
    requires |wb'| == |wb| && c != 0.0 && Sum(wb) != 0.0
    requires forall i :: 0 <= i < |wb| ==> wb'[i] == c * wb[i]
    requires Sum(wb') == c * Sum(wb)
    ensures Sum(wb') != 0.0 && Factors(wb', Sum(wb')) == Factors(wb, Sum(wb))
  {
    MulNonZero(c, Sum(wb));
    RatiosScaled(wb, wb', Sum(wb), Sum(wb'), c);
  }

  lemma RatiosScaled(wb: seq<real>, wb': seq<real>, den: real, den': real, c: real)
    requires |wb'| == |wb| && c != 0.0 && den != 0.0
    requires forall i :: 0 <= i < |wb| ==> wb'[i] == c * wb[i]
    requires den' == c * den
    ensures den' != 0.0 && forall i :: 0 <= i < |wb| ==> wb'[i] / den' == wb[i] / den
  {
    MulNonZero(c, den);
    forall i | 0 <= i < |wb|
      ensures wb'[i] / den' == wb[i] / den
    {
      RatioScaled(wb'[i], den', wb[i], den, c);
    }
  }

  /** Non-negative basis values and positive weights keep the result inside
      the bounding box `[lo, hi]` of the active control points. */
  lemma RationalInHull(active: seq<ControlPoint>, basis: seq<real>, lo: Vec, hi: Vec)
    requires |basis| == |active|
    requires forall i :: 0 <= i < |active| ==> basis[i] >= 0.0 && active[i].weight > 0.0
    requires forall i :: 0 <= i < |active| ==> lo.x <= active[i].x <= hi.x && lo.y <= active[i].y <= hi.y
    ensures Rational(active, basis).Ok? ==>
              var p := Rational(active, basis).value;
              lo.x <= p.x <= hi.x && lo.y <= p.y <= hi.y
  {
    var wb := WeightedBasis(active, basis);
    forall i | 0 <= i < |wb|
      ensures wb[i] >= 0.0
    {
      MulNonNegative(basis[i], active[i].weight);
    }
    SumNonNegative(wb);
    if Sum(wb) != 0.0 {
      var f := Factors(wb, Sum(wb));
      forall i | 0 <= i < |f|
        ensures f[i] >= 0.0
      {
      }
      FactorsSumToOne(wb);
      DotBounds(f, Xs(active), lo.x, hi.x);
      DotBounds(f, Ys(active), lo.y, hi.y);
    }
  }

  /** With positive weights, non-negative basis values and one positive basis
      value, the weighted combination is defined. */
  lemma RationalDefined(active: seq<ControlPoint>, basis: seq<real>, i: nat)
    requires |basis| == |active| && i < |active| && basis[i] > 0.0
    requires forall j :: 0 <= j < |active| ==> active[j].weight > 0.0 && basis[j] >= 0.0
    ensures Rational(active, basis).Ok?
  {
    var wb := WeightedBasis(active, basis);
    forall j | 0 <= j < |wb|
      ensures wb[j] >= 0.0
    {
      MulNonNegative(basis[j], active[j].weight);
    }
    assert wb[i] > 0.0;
    SumPositive(wb, i);
  }

  // ----- evaluation -----

  /** The knot vector holds every knot the evaluation can read. */
  predicate KnotsFit(count: nat, degree: nat, knots: seq<real>)
  {
    count > degree ==> |knots| >= count + degree + 1
  }

  /** The basis values of the `degree + 1` control points active in `span`. */
  function ActiveBasis(u: real, span: nat, degree: nat, knots: seq<real>): (b: seq<real>)
    requires degree <= span && span + degree + 1 < |knots|
    ensures |b| == degree + 1
    ensures forall j :: 0 <= j <= degree ==> b[j] == Basis(u, span - degree + j, degree, knots)
  {
    BasisRow(u, span - degree, degree, knots, degree + 1)
  }

  /** The degree-`k` basis values of the `n` functions starting at `first`,
      `first + 1`, ... */
  function BasisRow(u: real, first: nat, k: nat, knots: seq<real>, n: nat): (b: seq<real>)
    requires first + n + k < |knots|
    ensures |b| == n
    ensures forall j :: 0 <= j < n ==> b[j] == Basis(u, first + j, k, knots)
  {
    if n == 0 then [] else BasisRow(u, first, k, knots, n - 1) + [Basis(u, first + n - 1, k, knots)]
  }

  /** `u` is the first knot of a curve clamped at its start. */
  predicate AtClampedStart(clampStart: bool, knots: seq<real>, u: real)
  {
    clampStart && |knots| > 0 && u == knots[0]
  }

  /** `u` is the last knot of a curve clamped at its end. */
  predicate AtClampedEnd(clampEnd: bool, knots: seq<real>, u: real)
  {
    clampEnd && |knots| > 0 && u == knots[|knots| - 1]
  }

  /** The curve point at `u`. Too few control points for the degree fail
      first; at a clamped end the end control point is returned before the
      domain is checked; outside `[knots[degree], knots[count]]` the
      evaluation fails; otherwise the active control points are combined. */
  function EvaluateBSpline(points: seq<ControlPoint>, degree: nat, knots: seq<real>,
                           clampStart: bool, clampEnd: bool, u: real): (r: Result<Vec>)
    requires KnotsFit(|points|, degree, knots)
    ensures r == Err(TooFewPoints) <==> |points| <= degree
    ensures |points| > degree && AtClampedStart(clampStart, knots, u) ==> r == Ok(points[0].Position())
    ensures |points| > degree && !AtClampedStart(clampStart, knots, u) && AtClampedEnd(clampEnd, knots, u) ==>
              r == Ok(points[|points| - 1].Position())
    ensures r == Err(OutOfRange) <==>
              && |points| > degree
              && !AtClampedStart(clampStart, knots, u) && !AtClampedEnd(clampEnd, knots, u)
              && (u < knots[degree] || u > knots[|points|])
    ensures r.Err? ==> r.failure != NoKnots
  {
    if |points| <= degree then
      Err(TooFewPoints)
    else if AtClampedStart(clampStart, knots, u) then
      Ok(points[0].Position())
    else if AtClampedEnd(clampEnd, knots, u) then
      Ok(points[|points| - 1].Position())
    else
      var span := Span(|points|, degree, u, knots);
      if u < knots[degree] || u > knots[|points|] then
        Err(OutOfRange)
      else
        Rational(points[span - degree .. span + 1], ActiveBasis(u, span, degree, knots))
  }

  /** Inside the domain and away from the clamped-end shortcuts, the curve
      point is the rational combination of the control points active in the
      span of `u`. */
  lemma EvaluateInDomain(points: seq<ControlPoint>, degree: nat, knots: seq<real>,
                         clampStart: bool, clampEnd: bool, u: real) returns (span: nat)
    requires KnotsFit(|points|, degree, knots) && |points| > degree
    requires !AtClampedStart(clampStart, knots, u) && !AtClampedEnd(clampEnd, knots, u)
    requires knots[degree] <= u <= knots[|points|]
    ensures degree <= span < |points| && span == Span(|points|, degree, u, knots)
    ensures EvaluateBSpline(points, degree, knots, clampStart, clampEnd, u)
            == Rational(points[span - degree .. span + 1], ActiveBasis(u, span, degree, knots))
  {
    hide Rational, Basis, ActiveBasis;
    span := Span(|points|, degree, u, knots);
  }

  /** Scaling every weight by the same non-zero `c` leaves the curve unchanged. */
  lemma EvaluateScaled(points: seq<ControlPoint>, points': seq<ControlPoint>, degree: nat, knots: seq<real>,
                       clampStart: bool, clampEnd: bool, u: real, c: real)
    requires KnotsFit(|points|, degree, knots) && c != 0.0
    requires ScaledWeights(points, points', c)
    ensures EvaluateBSpline(points', degree, knots, clampStart, clampEnd, u)
            == EvaluateBSpline(points, degree, knots, clampStart, clampEnd, u)
  {
    hide EvaluateBSpline, Rational, Span, Basis, ActiveBasis;
    if |points| > degree && !AtClampedStart(clampStart, knots, u) && !AtClampedEnd(clampEnd, knots, u)
       && knots[degree] <= u <= knots[|points|] {
      var span := EvaluateInDomain(points, degree, knots, clampStart, clampEnd, u);
      var span' := EvaluateInDomain(points', degree, knots, clampStart, clampEnd, u);
      assert span' == span;
      ScaledWeightsSlice(points, points', c, span - degree, span + 1);
      RationalScaled(points[span - degree .. span + 1], points'[span - degree .. span + 1],
                     ActiveBasis(u, span, degree, knots), c);
    } else if |points| > degree && AtClampedStart(clampStart, knots, u) {
      assert points'[0].Position() == points[0].Position();
    } else if |points| > degree && AtClampedEnd(clampEnd, knots, u) {
      assert points'[|points| - 1].Position() == points[|points| - 1].Position();
    }
  }

  /** When all control points coincide, every curve point is that point. */
  lemma EvaluateCoincident(points: seq<ControlPoint>, degree: nat, knots: seq<real>,
                           clampStart: bool, clampEnd: bool, u: real, q: Vec)
    requires KnotsFit(|points|, degree, knots)
    requires forall i :: 0 <= i < |points| ==> points[i].Position() == q
    ensures EvaluateBSpline(points, degree, knots, clampStart, clampEnd, u).Ok? ==>
              EvaluateBSpline(points, degree, knots, clampStart, clampEnd, u).value == q
  {
    hide EvaluateBSpline, Rational, Span, Basis;
    if |points| > degree && !AtClampedStart(clampStart, knots, u) && !AtClampedEnd(clampEnd, knots, u)
       && knots[degree] <= u <= knots[|points|] {
      var span := EvaluateInDomain(points, degree, knots, clampStart, clampEnd, u);
      var active := points[span - degree .. span + 1];
      assert forall i :: 0 <= i < |active| ==> active[i].Position() == q by {
        forall i | 0 <= i < |active| ensures active[i].Position() == q {
          assert active[i] == points[span - degree + i];
        }
      }
      RationalCoincident(active, ActiveBasis(u, span, degree, knots), q);
    }
  }

  /** Over a non-decreasing knot vector and with positive weights, every curve
      point lies in the bounding box `[lo, hi]` of the control points. */
  lemma EvaluateInHull(points: seq<ControlPoint>, degree: nat, knots: seq<real>,
                       clampStart: bool, clampEnd: bool, u: real, lo: Vec, hi: Vec)
    requires KnotsFit(|points|, degree, knots) && NonDecreasing(knots)
    requires forall i :: 0 <= i < |points| ==> points[i].weight > 0.0
    requires forall i :: 0 <= i < |points| ==> lo.x <= points[i].x <= hi.x && lo.y <= points[i].y <= hi.y
    ensures EvaluateBSpline(points, degree, knots, clampStart, clampEnd, u).Ok? ==>
              var p := EvaluateBSpline(points, degree, knots, clampStart, clampEnd, u).value;
              lo.x <= p.x <= hi.x && lo.y <= p.y <= hi.y
  {
    hide EvaluateBSpline, Rational, Span, Basis;
    if |points| > degree && !AtClampedStart(clampStart, knots, u) && !AtClampedEnd(clampEnd, knots, u)
       && knots[degree] <= u <= knots[|points|] {
      var span := EvaluateInDomain(points, degree, knots, clampStart, clampEnd, u);
      var active := points[span - degree .. span + 1];
      var basis := ActiveBasis(u, span, degree, knots);
      forall i | 0 <= i < |active|
        ensures basis[i] >= 0.0 && active[i].weight > 0.0
        ensures lo.x <= active[i].x <= hi.x && lo.y <= active[i].y <= hi.y
      {
        assert active[i] == points[span - degree + i];
        BasisLocal(u, span - degree + i, degree, knots);
      }
      RationalInHull(active, basis, lo, hi);
    } else if |points| > degree && AtClampedStart(clampStart, knots, u) {
    } else if |points| > degree && AtClampedEnd(clampEnd, knots, u) {
      assert 0 <= |points| - 1 < |points|;
    }
  }

  /** Over a non-decreasing knot vector whose domain spans are non-empty, and
      with positive weights, a curve of degree at least 1 is defined at every
      `u` of the domain; at its right end this needs a later knot beyond it,
      unless the clamped-end shortcut applies there. */
  lemma EvaluateDefined(points: seq<ControlPoint>, degree: nat, knots: seq<real>,
                        clampStart: bool, clampEnd: bool, u: real)
    requires KnotsFit(|points|, degree, knots) && NonDecreasing(knots)
    requires |points| > degree >= 1
    requires forall i :: 0 <= i < |points| ==> points[i].weight > 0.0
    requires forall i :: degree <= i < |points| ==> knots[i] < knots[i + 1]
    requires knots[degree] <= u <= knots[|points|]
    requires u == knots[|points|] && !AtClampedEnd(clampEnd, knots, u) ==> knots[|points|] < knots[|points| + 1]
    ensures EvaluateBSpline(points, degree, knots, clampStart, clampEnd, u).Ok?
  {
    hide EvaluateBSpline, Rational, Span, Basis;
    if !AtClampedStart(clampStart, knots, u) && !AtClampedEnd(clampEnd, knots, u) {
      var span := EvaluateInDomain(points, degree, knots, clampStart, clampEnd, u);
      SpanBrackets(|points|, degree, u, knots);
      var j := if u < knots[span + 1] then span else span + 1;
      var i := BasisPositive(u, j, degree, knots);
      var active := points[span - degree .. span + 1];
      var basis := ActiveBasis(u, span, degree, knots);
      forall m | 0 <= m < |active|
        ensures active[m].weight > 0.0 && basis[m] >= 0.0
      {
        assert active[m] == points[span - degree + m];
        BasisLocal(u, span - degree + m, degree, knots);
      }
      RationalDefined(active, basis, i - (span - degree));
    }
  }

  /** With the knots the editor generates, positive weights and degree at
      least 1, the curve is defined on the whole domain. */
  lemma GeneratedKnotsDefined(points: seq<ControlPoint>, degree: nat, clampStart: bool, clampEnd: bool, u: real)
    requires |points| > degree >= 1
    requires forall i :: 0 <= i < |points| ==> points[i].weight > 0.0
    ensures var knots := BuildKnots(|points|, degree, clampStart, clampEnd).value;
              knots[degree] <= u <= knots[|points|] ==>
                EvaluateBSpline(points, degree, knots, clampStart, clampEnd, u).Ok?
  {
    var knots := BuildKnots(|points|, degree, clampStart, clampEnd).value;
    if knots[degree] <= u <= knots[|points|] {
      KnotsNonDecreasing(|points|, degree, clampStart, clampEnd);
      DomainSpansNonEmpty(|points|, degree, clampStart, clampEnd);
      DomainEnd(|points|, degree, clampStart, clampEnd);
      EvaluateDefined(points, degree, knots, clampStart, clampEnd, u);
    }
  }

  /** Degree 0 is the exception: the half-open indicator of the span that
      the search picks is 0 at its right knot, so two unit-weight points over
      the knots `[0, 1/2, 1]` give a point at the first knot and inside a span
      but none at the interior knot, nor at the last knot unless the end is
      clamped, where the shortcut gives the last point. */
  lemma DegreeZeroAtKnots()
    ensures var ps := [ControlPoint(0.0, 0.0, 1.0), ControlPoint(1.0, 1.0, 1.0)];
            var knots := BuildKnots(2, 0, false, false).value;
            && knots == [0.0, 0.5, 1.0] == BuildKnots(2, 0, false, true).value
            && EvaluateBSpline(ps, 0, knots, false, false, 0.0) == Ok(Vec(0.0, 0.0))
            && EvaluateBSpline(ps, 0, knots, false, false, 0.25) == Ok(Vec(0.0, 0.0))
            && EvaluateBSpline(ps, 0, knots, false, false, 0.5) == Err(ZeroDivisor)
            && EvaluateBSpline(ps, 0, knots, false, false, 1.0) == Err(ZeroDivisor)
            && EvaluateBSpline(ps, 0, knots, false, true, 1.0) == Ok(Vec(1.0, 1.0))
  {
    var ps := [ControlPoint(0.0, 0.0, 1.0), ControlPoint(1.0, 1.0, 1.0)];
    var knots := BuildKnots(2, 0, false, false).value;
    UniformKnots(2, 0);
    assert knots == [0.0, 0.5, 1.0];
    assert BuildKnots(2, 0, false, true).value == Ramp(0, 2, 2) + Repeat(1.0, 1) == knots;
    DegreeZeroFirstSpan(ps, knots, 0.0);
    DegreeZeroFirstSpan(ps, knots, 0.25);
    DegreeZeroRightKnot(ps, knots, 0.5, 0);
    DegreeZeroRightKnot(ps, knots, 1.0, 1);
  }

  /** A degree-0 basis function is 1 inside its span. */
  lemma IndicatorInside(u: real, i: nat, knots: seq<real>)
    requires i + 1 < |knots| && knots[i] <= u < knots[i + 1]
    ensures Basis(u, i, 0, knots) == 1.0
  {
  }

  /** In the degree-0 example every `u` of the first span `[0, 1/2)` gives
      the first point. */
  lemma DegreeZeroFirstSpan(ps: seq<ControlPoint>, knots: seq<real>, u: real)
    requires ps == [ControlPoint(0.0, 0.0, 1.0), ControlPoint(1.0, 1.0, 1.0)] && knots == [0.0, 0.5, 1.0]
    requires 0.0 <= u < 0.5
    ensures EvaluateBSpline(ps, 0, knots, false, false, u) == Ok(Vec(0.0, 0.0))
  {
    hide EvaluateBSpline, Rational, Span, Basis, ActiveBasis;
    var span := EvaluateInDomain(ps, 0, knots, false, false, u);
    var mid := knots[1];
    assert 1 <= span ==> mid < u;
    var active := ps[0..1];
    var basis := ActiveBasis(u, 0, 0, knots);
    IndicatorInside(u, 0, knots);
    RationalDefined(active, basis, 0);
    RationalCoincident(active, basis, Vec(0.0, 0.0));
  }

  /** In the degree-0 example a `u` at the right knot of the span the search
      picks has only a zero basis value. */
  lemma DegreeZeroRightKnot(ps: seq<ControlPoint>, knots: seq<real>, u: real, span: nat)
    requires ps == [ControlPoint(0.0, 0.0, 1.0), ControlPoint(1.0, 1.0, 1.0)] && knots == [0.0, 0.5, 1.0]
    requires span < 2 && u == knots[span + 1]
    ensures EvaluateBSpline(ps, 0, knots, false, false, u) == Err(ZeroDivisor)
  {
    assert Span(2, 0, u, knots) == span;
    var basis := ActiveBasis(u, span, 0, knots);
    assert basis == [0.0];
    var wb := WeightedBasis(ps[span..span + 1], basis);
    assert wb == [0.0];
    assert Sum(wb) == 0.0;
  }

  /** With knots built for clamped ends, the curve starts exactly at the first
      control point (u = 0) and ends exactly at the last one (u = 1). */
  lemma ClampedEndpoints(points: seq<ControlPoint>, degree: nat, clampStart: bool, clampEnd: bool)
    requires |points| > degree
    ensures var knots := BuildKnots(|points|, degree, clampStart, clampEnd).value;
              && KnotsFit(|points|, degree, knots)
              && (clampStart ==> EvaluateBSpline(points, degree, knots, clampStart, clampEnd, 0.0)
                                 == Ok(points[0].Position()))
              && (clampEnd ==> EvaluateBSpline(points, degree, knots, clampStart, clampEnd, 1.0)
                               == Ok(points[|points| - 1].Position()))
  {
    KnotsFromZeroToOne(|points|, degree, clampStart, clampEnd);
  }

  /** `Dot` and `Sum` of two terms. */
  lemma DotPair(f0: real, f1: real, v0: real, v1: real)
    ensures Dot([f0, f1], [v0, v1]) == f0 * v0 + f1 * v1
    ensures Sum([f0, f1]) == f0 + f1
  {
    DotLast([f0, f1], [v0, v1], 1);
    assert [f0, f1][..1] == [f0] && [v0, v1][..1] == [v0];
    DotLast([f0], [v0], 0);
    assert [f0][..0] == [] && [v0][..0] == [];
  }

  /** Two unit-weight points with basis values `1 - t` and `t` combine into
      the affine blend of their positions. */
  lemma RationalPair(x0: real, y0: real, x1: real, y1: real, t: real)
    ensures Rational([ControlPoint(x0, y0, 1.0), ControlPoint(x1, y1, 1.0)], [1.0 - t, t])
            == Ok(Lerp(Vec(x0, y0), Vec(x1, y1), t))
  {
    var ps := [ControlPoint(x0, y0, 1.0), ControlPoint(x1, y1, 1.0)];
    var wb := WeightedBasis(ps, [1.0 - t, t]);
    assert wb == [1.0 - t, t];
    DotPair(1.0 - t, t, x0, x1);
    DotPair(1.0 - t, t, y0, y1);
    assert Sum(wb) == 1.0;
    var f := Factors(wb, Sum(wb));
    assert f[0] == (1.0 - t) / 1.0 && f[1] == t / 1.0;
    assert f == [1.0 - t, t];
    assert Xs(ps) == [x0, x1] && Ys(ps) == [y0, y1];
    hide Dot, Sum, Factors, WeightedBasis, Xs, Ys, Lerp;
    assert Rational(ps, [1.0 - t, t]) == Ok(Vec(Dot(f, Xs(ps)), Dot(f, Ys(ps))));
    assert Dot(f, Xs(ps)) == Blend(x0, x1, t);
    assert Dot(f, Ys(ps)) == Blend(y0, y1, t);
    LerpCoordinates(x0, y0, x1, y1, t);
  }

  /** Over knots `[0, 0, 1, 1]` the two degree-1 basis functions inside the
      domain are `1 - u` and `u`. */
  lemma LinearBasis(u: real)
    requires 0.0 < u < 1.0
    ensures ActiveBasis(u, 1, 1, [0.0, 0.0, 1.0, 1.0]) == [1.0 - u, u]
  {
    var knots := [0.0, 0.0, 1.0, 1.0];
    var basis := ActiveBasis(u, 1, 1, knots);
    assert Basis(u, 1, 0, knots) == 1.0;
    assert basis[0] == Basis(u, 0, 1, knots) == 1.0 - u;
    assert basis[1] == Basis(u, 1, 1, knots) == u;
  }

  /** Inside the domain the degree-1 curve over `[0, 0, 1, 1]` combines both
      control points with basis values `1 - u` and `u`. */
  lemma LinearInterior(p0: Vec, p1: Vec, u: real)
    requires 0.0 < u < 1.0
    ensures EvaluateBSpline([ControlPoint(p0.x, p0.y, 1.0), ControlPoint(p1.x, p1.y, 1.0)],
                            1, [0.0, 0.0, 1.0, 1.0], true, true, u)
            == Ok(Lerp(p0, p1, u))
  {
    hide Rational, Basis, ActiveBasis, EvaluateBSpline, Span, Lerp;
    var points := [ControlPoint(p0.x, p0.y, 1.0), ControlPoint(p1.x, p1.y, 1.0)];
    var span := EvaluateInDomain(points, 1, [0.0, 0.0, 1.0, 1.0], true, true, u);
    assert span == 1 && points[span - 1 .. span + 1] == points;
    LinearBasis(u);
    RationalPair(p0.x, p0.y, p1.x, p1.y, u);
    assert Vec(p0.x, p0.y) == p0 && Vec(p1.x, p1.y) == p1;
  }

  /** A degree-1 curve through two unit-weight points with knots
      `[0, 0, 1, 1]` is the straight segment from `p0` to `p1`. */
  lemma LinearPrecision(p0: Vec, p1: Vec, u: real)
    requires 0.0 <= u <= 1.0
    ensures EvaluateBSpline([ControlPoint(p0.x, p0.y, 1.0), ControlPoint(p1.x, p1.y, 1.0)],
                            1, [0.0, 0.0, 1.0, 1.0], true, true, u)
            == Ok(Lerp(p0, p1, u))
  {
    hide Rational, EvaluateBSpline, Lerp;
    LerpEnds(p0, p1);
    if 0.0 < u < 1.0 {
      LinearInterior(p0, p1, u);
    } else if u == 0.0 {
      assert AtClampedStart(true, [0.0, 0.0, 1.0, 1.0], u);
    } else {
      assert !AtClampedStart(true, [0.0, 0.0, 1.0, 1.0], u) && AtClampedEnd(true, [0.0, 0.0, 1.0, 1.0], u);
    }
  }
}

=== FILE: deboor.dfy ===
/** De Boor's algorithm for the non-rational B-spline point in a knot span:
    the level pyramid that the construction view draws, and the in-place
    computation that keeps only its newest entries. */
module DeBoor {
  import opened Results
  import opened Geometry
  import opened Knots
  import opened BSpline

  /** Every knot index that the pyramid of `span` reads exists. */
  predicate SpanFits(knots: seq<real>, span: nat, degree: nat)
  {
    degree <= span && span + degree + 1 < |knots|
  }

  /** Denominator of the blend factor of entry `i` on level `r`: the length of
      the knot interval `[knots[span - degree + r + i], knots[span + i + 1]]`. */
  function Denominator(knots: seq<real>, span: nat, degree: nat, r: nat, i: nat): real
    requires SpanFits(knots, span, degree) && 1 <= r && i + r <= degree
  {
    knots[span + i + 1] - knots[span - degree + r + i]
  }

  /** Where `u` sits inside that knot interval, as a fraction of its length. */
  function Alpha(knots: seq<real>, span: nat, degree: nat, r: nat, i: nat, u: real): real
    requires SpanFits(knots, span, degree) && 1 <= r && i + r <= degree
    requires Denominator(knots, span, degree, r, i) != 0.0
  {
    (u - knots[span - degree + r + i]) / Denominator(knots, span, degree, r, i)
  }

  /** No blend factor of level `r` divides by zero. */
  predicate LevelDefined(knots: seq<real>, span: nat, degree: nat, r: nat)
    requires SpanFits(knots, span, degree) && 1 <= r <= degree
  {
    forall i :: 0 <= i <= degree - r ==> Denominator(knots, span, degree, r, i) != 0.0
  }

  /** Level `r` of the pyramid: each entry blends two neighbours of level `r - 1`. */
  function NextLevel(prev: seq<Vec>, knots: seq<real>, span: nat, degree: nat, r: nat, u: real): (next: seq<Vec>)
    requires SpanFits(knots, span, degree) && 1 <= r <= degree && |prev| == degree - r + 2
    requires LevelDefined(knots, span, degree, r)
    ensures |next| == |prev| - 1
  {
    seq(degree - r + 1, i requires 0 <= i <= degree - r =>
      Lerp(prev[i], prev[i + 1], Alpha(knots, span, degree, r, i, u)))
  }

  /** Levels `0 .. r` of the pyramid over the active points `base`; it fails
      exactly when some level up to `r` has a zero denominator. */
  function Levels(base: seq<Vec>, knots: seq<real>, span: nat, degree: nat, r: nat, u: real): (ls: Result<seq<seq<Vec>>>)
    requires SpanFits(knots, span, degree) && |base| == degree + 1 && r <= degree
    ensures ls.Ok? ==> |ls.value| == r + 1 && ls.value[0] == base
    ensures ls.Ok? ==> forall l :: 0 <= l <= r ==> |ls.value[l]| == degree + 1 - l
    ensures ls.Err? <==> exists l :: 1 <= l <= r && !LevelDefined(knots, span, degree, l)
    ensures ls.Err? ==> ls.failure == ZeroDivisor
    decreases r
  {
    if r == 0 then
      Ok([base])
    else
      var prev := Levels(base, knots, span, degree, r - 1, u);
      if prev.Err? then
        prev
      else if !LevelDefined(knots, span, degree, r) then
        Err(ZeroDivisor)
      else
        Ok(prev.value + [NextLevel(prev.value[r - 1], knots, span, degree, r, u)])
  }

  /** Positions of the `degree + 1` control points active in `span`. */
  function ActivePositions(points: seq<ControlPoint>, span: nat, degree: nat): (ps: seq<Vec>)
    requires degree <= span < |points|
    ensures |ps| == degree + 1
    ensures forall i :: 0 <= i <= degree ==> ps[i] == points[span - degree + i].Position()
  {
    seq(degree + 1, i requires 0 <= i <= degree => points[span - degree + i].Position())
  }

  /** The construction trace at `u`: nothing outside the domain
      `[knots[degree], knots[count]]`, otherwise the whole pyramid whose level 0
      is the active control points. */
  function ConstructionTrace(points: seq<ControlPoint>, degree: nat, knots: seq<real>, u: real): (r: Result<seq<seq<Vec>>>)
    requires |points| > degree && KnotsFit(|points|, degree, knots)
    ensures r == Err(OutOfRange) <==> u < knots[degree] || u > knots[|points|]
    ensures r.Err? ==> r.failure == OutOfRange || r.failure == ZeroDivisor
    ensures r.Ok? ==> |r.value| == degree + 1
    ensures r.Ok? ==> forall l :: 0 <= l <= degree ==> |r.value[l]| == degree + 1 - l
    ensures r.Ok? ==> r.value[0] == ActivePositions(points, Span(|points|, degree, u, knots), degree)
  {
    var span := Span(|points|, degree, u, knots);
    if u < knots[degree] || u > knots[|points|] then
      Err(OutOfRange)
    else
      Levels(ActivePositions(points, span, degree), knots, span, degree, degree, u)
  }

  /** One more level extends the pyramid by `NextLevel` of its top. */
  lemma LevelsStep(base: seq<Vec>, knots: seq<real>, span: nat, degree: nat, r: nat, u: real)
    requires SpanFits(knots, span, degree) && |base| == degree + 1 && 1 <= r <= degree
    requires Levels(base, knots, span, degree, r - 1, u).Ok? && LevelDefined(knots, span, degree, r)
    ensures Levels(base, knots, span, degree, r, u).Ok?
    ensures Levels(base, knots, span, degree, r, u).value
            == Levels(base, knots, span, degree, r - 1, u).value
               + [NextLevel(Levels(base, knots, span, degree, r - 1, u).value[r - 1], knots, span, degree, r, u)]
  {
  }

  /** Entry `i` of a level blends entries `i` and `i + 1` of the level below. */
  lemma NextLevelAt(prev: seq<Vec>, knots: seq<real>, span: nat, degree: nat, r: nat, u: real, i: nat)
    requires SpanFits(knots, span, degree) && 1 <= r <= degree && |prev| == degree - r + 2
    requires LevelDefined(knots, span, degree, r) && i <= degree - r
    ensures NextLevel(prev, knots, span, degree, r, u)[i] == Lerp(prev[i], prev[i + 1], Alpha(knots, span, degree, r, i, u))
  {
  }

  /** Inside the domain the construction trace is the pyramid over the
      control points active in the span of `u`. */
  lemma TraceInDomain(points: seq<ControlPoint>, degree: nat, knots: seq<real>, u: real) returns (span: nat)
    requires |points| > degree && KnotsFit(|points|, degree, knots)
    requires knots[degree] <= u <= knots[|points|]
    ensures span == Span(|points|, degree, u, knots) && SpanFits(knots, span, degree) && span < |points|
    ensures ConstructionTrace(points, degree, knots, u)
            == Levels(ActivePositions(points, span, degree), knots, span, degree, degree, u)
  {
    span := Span(|points|, degree, u, knots);
  }

  /** The blend factor of entry `j` in round `r`, written with the in-place
      algorithm's indices: `u`'s position in `[knots[span - degree + j], knots[span + j - r + 1]]`. */
  function BlendFactor(knots: seq<real>, span: nat, degree: nat, r: nat, j: nat, u: real): (alpha: real)
    requires SpanFits(knots, span, degree) && 1 <= r <= j <= degree
    requires LevelDefined(knots, span, degree, r)
    ensures alpha == Alpha(knots, span, degree, r, j - r, u)
  {
    assert Denominator(knots, span, degree, r, j - r) != 0.0;
    (u - knots[span - degree + j]) / (knots[span + j - r + 1] - knots[span - degree + j])
  }

  /** Round `r` of the in-place algorithm: entries `degree` down to `r` of `d`
      are blended with their left neighbours, which turns the top
      `degree - r + 2` entries (one pyramid level) into the next level. */
  method BlendRound(d: seq<Vec>, knots: seq<real>, span: nat, degree: nat, r: nat, u: real) returns (e: seq<Vec>)
    requires SpanFits(knots, span, degree) && 1 <= r <= degree && |d| == degree + 1
    requires LevelDefined(knots, span, degree, r)
    ensures |e| == degree + 1
    ensures e[r..] == NextLevel(d[r - 1..], knots, span, degree, r, u)
  {
    ghost var prev := d[r - 1..];
    ghost var next := NextLevel(prev, knots, span, degree, r, u);
    hide Alpha, Denominator, NextLevel, Lerp, LevelDefined, SpanFits;
    e := d;
    var j := degree;
    while j >= r
      invariant r - 1 <= j <= degree && |e| == degree + 1
      invariant forall m :: j < m <= degree ==> e[m] == next[m - r]
      invariant forall m :: r - 1 <= m <= j ==> e[m] == prev[m - r + 1]
    {
      var alpha := BlendFactor(knots, span, degree, r, j, u);
      NextLevelAt(prev, knots, span, degree, r, u, j - r);
      e := e[j := Lerp(e[j - 1], e[j], alpha)];
      j := j - 1;
    }
    SuffixEquals(e, r, next);
  }

  /** A suffix that agrees with `s` entry by entry equals `s`. */
  lemma SuffixEquals<T>(e: seq<T>, r: nat, s: seq<T>)
    requires r <= |e| && |e| - r == |s|
    requires forall m :: r <= m < |e| ==> e[m] == s[m - r]
    ensures e[r..] == s
  {
    assert forall m :: 0 <= m < |s| ==> e[r..][m] == e[m + r];
  }

  /** All rounds of the in-place algorithm on the active points `base`: the
      apex of the pyramid, or a failure when some level divides by zero. */
  method InPlaceRounds(base: seq<Vec>, knots: seq<real>, span: nat, degree: nat, u: real) returns (r: Result<Vec>)
    requires SpanFits(knots, span, degree) && |base| == degree + 1
    ensures var levels := Levels(base, knots, span, degree, degree, u);
              && (r.Ok? <==> levels.Ok?)
              && (r.Ok? ==> r.value == levels.value[degree][0])
              && (r.Err? ==> r.failure == ZeroDivisor)
  {
    hide Levels, NextLevel;
    var d := base;
    var round := 1;
    while round <= degree
      invariant 1 <= round <= degree + 1 && |d| == degree + 1
      invariant Levels(base, knots, span, degree, round - 1, u).Ok?
      invariant d[round - 1..] == Levels(base, knots, span, degree, round - 1, u).value[round - 1]
    {
      if !LevelDefined(knots, span, degree, round) {
        assert Levels(base, knots, span, degree, degree, u).Err?;
        return Err(ZeroDivisor);
      }
      LevelsStep(base, knots, span, degree, round, u);
      d := BlendRound(d, knots, span, degree, round, u);
      round := round + 1;
    }
    assert d[degree..][0] == d[degree];
    return Ok(d[degree]);
  }

  /** The curve point by de Boor's algorithm, overwriting one array of
      `degree + 1` points in place, one round per pyramid level. Fails without
      knots, with too few control points, outside the domain, or when a blend
      factor divides by zero; otherwise it is the apex of the construction
      trace. */
  method DeBoor(points: seq<ControlPoint>, degree: nat, knots: seq<real>, u: real) returns (r: Result<Vec>)
    requires KnotsFit(|points|, degree, knots)
    ensures r == Err(NoKnots) <==> |knots| == 0
    ensures r == Err(TooFewPoints) <==> |knots| > 0 && |points| <= degree
    ensures |knots| > 0 && |points| > degree ==>
              var trace := ConstructionTrace(points, degree, knots, u);
              && (r.Ok? <==> trace.Ok?)
              && (r.Ok? ==> r.value == trace.value[degree][0])
              && (r.Err? ==> r.failure == trace.failure)
  {
    if |knots| == 0 {
      return Err(NoKnots);
    }
    if |points| <= degree {
      return Err(TooFewPoints);
    }
    var span := Span(|points|, degree, u, knots);
    if u < knots[degree] || u > knots[|points|] {
      return Err(OutOfRange);
    }
    ghost var span' := TraceInDomain(points, degree, knots, u);
    hide Levels, ConstructionTrace;
    r := InPlaceRounds(ActivePositions(points, span, degree), knots, span, degree, u);
  }

  // ----- properties -----

  /** Over non-decreasing knots, when the span itself is non-empty every
      blend factor of the pyramid has a positive denominator. */
  lemma DenominatorPositive(knots: seq<real>, span: nat, degree: nat, r: nat, i: nat)
    requires SpanFits(knots, span, degree) && 1 <= r && i + r <= degree
    requires NonDecreasing(knots) && knots[span] < knots[span + 1]
    ensures Denominator(knots, span, degree, r, i) > 0.0
  {
    assert knots[span - degree + r + i] <= knots[span];
    assert knots[span + 1] <= knots[span + i + 1];
  }

  /** Over non-decreasing knots with a non-empty span, every level of the
      pyramid is defined, whatever the active points and `u`. */
  lemma {:induction false} LevelsDefined(base: seq<Vec>, knots: seq<real>, span: nat, degree: nat, r: nat, u: real)
    requires SpanFits(knots, span, degree) && |base| == degree + 1 && r <= degree
    requires NonDecreasing(knots) && knots[span] < knots[span + 1]
    ensures Levels(base, knots, span, degree, r, u).Ok?
  {
    forall l, i | 1 <= l <= r && 0 <= i <= degree - l
      ensures Denominator(knots, span, degree, l, i) != 0.0
    {
      DenominatorPositive(knots, span, degree, l, i);
    }
  }

  /** With `u` inside the span, every blend factor lies in `[0, 1]`. */
  lemma AlphaInUnit(knots: seq<real>, span: nat, degree: nat, r: nat, i: nat, u: real)
    requires SpanFits(knots, span, degree) && 1 <= r && i + r <= degree
    requires NonDecreasing(knots) && knots[span] <= u <= knots[span + 1]
    requires Denominator(knots, span, degree, r, i) != 0.0
    ensures 0.0 <= Alpha(knots, span, degree, r, i, u) <= 1.0
  {
    var lo, hi := knots[span - degree + r + i], knots[span + i + 1];
    assert lo <= knots[span] && knots[span + 1] <= hi;
    FractionInUnit(u - lo, hi - lo);
  }

  /** A level built from points in a box stays in the box. */
  lemma NextLevelInBox(prev: seq<Vec>, knots: seq<real>, span: nat, degree: nat, r: nat, u: real,
                       lo: Vec, hi: Vec)
    requires SpanFits(knots, span, degree) && 1 <= r <= degree && |prev| == degree - r + 2
    requires LevelDefined(knots, span, degree, r)
    requires NonDecreasing(knots) && knots[span] <= u <= knots[span + 1]
    requires forall i :: 0 <= i < |prev| ==> InBox(prev[i], lo, hi)
    ensures var next := NextLevel(prev, knots, span, degree, r, u);
            forall i :: 0 <= i < |next| ==> InBox(next[i], lo, hi)
  {
    var next := NextLevel(prev, knots, span, degree, r, u);
    hide NextLevel, Lerp;
    forall i | 0 <= i < |next|
      ensures InBox(next[i], lo, hi)
    {
      AlphaInUnit(knots, span, degree, r, i, u);
      NextLevelAt(prev, knots, span, degree, r, u, i);
      LerpInBox(prev[i], prev[i + 1], Alpha(knots, span, degree, r, i, u), lo, hi);
    }
  }

  /** Every point of every level stays in any box that holds the active points. */
  lemma {:induction false} LevelsInBox(base: seq<Vec>, knots: seq<real>, span: nat, degree: nat, r: nat, u: real,
                                       lo: Vec, hi: Vec)
    requires SpanFits(knots, span, degree) && |base| == degree + 1 && r <= degree
    requires NonDecreasing(knots) && knots[span] <= u <= knots[span + 1]
    requires forall i :: 0 <= i < |base| ==> InBox(base[i], lo, hi)
    ensures Levels(base, knots, span, degree, r, u).Ok? ==>
              var ls := Levels(base, knots, span, degree, r, u).value;
              forall l, i :: 0 <= l <= r && 0 <= i < |ls[l]| ==> InBox(ls[l][i], lo, hi)
    decreases r
  {
    var trace := Levels(base, knots, span, degree, r, u);
    if r > 0 && trace.Ok? {
      hide Levels, NextLevel;
      LevelsInBox(base, knots, span, degree, r - 1, u, lo, hi);
      var ls := Levels(base, knots, span, degree, r - 1, u).value;
      LevelsStep(base, knots, span, degree, r, u);
      var next := NextLevel(ls[r - 1], knots, span, degree, r, u);
      NextLevelInBox(ls[r - 1], knots, span, degree, r, u, lo, hi);
      assert trace.value == ls + [next];
      forall l, i | 0 <= l <= r && 0 <= i < |trace.value[l]|
        ensures InBox(trace.value[l][i], lo, hi)
      {
        if l < r {
          assert trace.value[l] == ls[l];
        } else {
          assert trace.value[l] == next;
        }
      }
    }
  }

  /** Over non-decreasing knots the whole construction trace, and with it
      the de Boor point, lies in the bounding box of the control points. */
  lemma TraceInHull(points: seq<ControlPoint>, degree: nat, knots: seq<real>, u: real, lo: Vec, hi: Vec)
    requires |points| > degree && KnotsFit(|points|, degree, knots) && NonDecreasing(knots)
    requires forall i :: 0 <= i < |points| ==> InBox(points[i].Position(), lo, hi)
    ensures ConstructionTrace(points, degree, knots, u).Ok? ==>
              var ls := ConstructionTrace(points, degree, knots, u).value;
              forall l, i :: 0 <= l <= degree && 0 <= i < |ls[l]| ==> InBox(ls[l][i], lo, hi)
  {
    if knots[degree] <= u <= knots[|points|] {
      var span := TraceInDomain(points, degree, knots, u);
      SpanBrackets(|points|, degree, u, knots);
      LevelsInBox(ActivePositions(points, span, degree), knots, span, degree, degree, u, lo, hi);
    }
  }

  /** With the knots `updateKnots` builds, the construction trace exists at
      every parameter in the domain. */
  lemma GeneratedKnotsTrace(points: seq<ControlPoint>, degree: nat, clampStart: bool, clampEnd: bool, u: real)
    requires |points| > degree
    ensures var knots := BuildKnots(|points|, degree, clampStart, clampEnd).value;
              && KnotsFit(|points|, degree, knots)
              && (knots[degree] <= u <= knots[|points|] ==> ConstructionTrace(points, degree, knots, u).Ok?)
  {
    var knots := BuildKnots(|points|, degree, clampStart, clampEnd).value;
    KnotsNonDecreasing(|points|, degree, clampStart, clampEnd);
    DomainSpansNonEmpty(|points|, degree, clampStart, clampEnd);
    if knots[degree] <= u <= knots[|points|] {
      var span := Span(|points|, degree, u, knots);
      LevelsDefined(ActivePositions(points, span, degree), knots, span, degree, degree, u);
    }
  }

  /** When all control points coincide, so does every point the de Boor
      pyramid produces. */
  lemma TraceCoincident(points: seq<ControlPoint>, degree: nat, knots: seq<real>, u: real, q: Vec)
    requires |points| > degree && KnotsFit(|points|, degree, knots) && NonDecreasing(knots)
    requires forall i :: 0 <= i < |points| ==> points[i].Position() == q
    ensures ConstructionTrace(points, degree, knots, u).Ok? ==>
              var ls := ConstructionTrace(points, degree, knots, u).value;
              forall l, i :: 0 <= l <= degree && 0 <= i < |ls[l]| ==> ls[l][i] == q
  {
    TraceInHull(points, degree, knots, u, q, q);
  }
}

=== FILE: editing.dfy ===
/** The editing gestures of the two editors — adding a point, deleting it,
    dragging it, dragging its weight circle — as edits on the list of control
    points, and the invariant they keep: every weight stays positive, so the
    curve drawn afterwards exists and stays in the hull of the points. */
module Editing {
  import opened Results
  import opened Geometry
  import opened Knots
  import opened BSpline
  import opened Bezier

  /** Dragging the weight circle never makes a weight smaller than this. */
  const MinWeight: real := 0.1
  /** Both editors set the weight to the cursor distance divided by this. */
  const WeightRadius: real := 30.0

  /** The weight set by dragging the weight circle to a cursor `distance` away
      from the point: `Math.max(0.1, distance / 30)`. The distance itself is the
      Euclidean distance, which is taken as given. */
  function DraggedWeight(distance: real): (w: real)
    ensures w >= MinWeight
    ensures w * WeightRadius >= distance
    ensures w == MinWeight || w * WeightRadius == distance
  {
    Max(MinWeight, distance / WeightRadius)
  }

  /** The dragged circle passes through the cursor unless that would take the
      weight below the minimum, in which case the weight is the minimum. */
  lemma WeightCircleFollowsCursor(distance: real)
    ensures distance >= MinWeight * WeightRadius ==> DraggedWeight(distance) * WeightRadius == distance
    ensures distance <= MinWeight * WeightRadius ==> DraggedWeight(distance) == MinWeight
  {
  }

  /** Dragging farther away never gives a smaller weight. */
  lemma DraggedWeightMonotone(d0: real, d1: real)
    requires d0 <= d1
    ensures DraggedWeight(d0) <= DraggedWeight(d1)
  {
  }

  /** One editing gesture: a left click on empty canvas adds a point with
      weight 1, a right click on a point deletes it, and a drag moves a point
      or sets its weight from the cursor's distance. The index is the point
      the hit test found. */
  datatype Edit =
    | Add(at: Vec)
    | Remove(index: nat)
    | Move(index: nat, to: Vec)
    | Reweight(index: nat, distance: real)

  // ----- the B-spline editor -----

  predicate PositiveWeights(points: seq<ControlPoint>)
  {
    forall i :: 0 <= i < |points| ==> points[i].weight > 0.0
  }

  /** Apply one edit to the B-spline editor's points; an index that names no
      point leaves the list as it is. */
  function SplineEdit(points: seq<ControlPoint>, e: Edit): (r: seq<ControlPoint>)
    ensures PositiveWeights(points) ==> PositiveWeights(r)
    ensures e.Add? ==> |r| == |points| + 1 && r[..|points|] == points
                       && r[|points|].Position() == e.at && r[|points|].weight == 1.0
    ensures e.Remove? && e.index < |points| ==>
              && |r| == |points| - 1
              && (forall j :: 0 <= j < e.index ==> r[j] == points[j])
              && (forall j :: e.index <= j < |r| ==> r[j] == points[j + 1])
    ensures e.Move? && e.index < |points| ==>
              && |r| == |points|
              && r[e.index].Position() == e.to && r[e.index].weight == points[e.index].weight
              && (forall j :: 0 <= j < |r| && j != e.index ==> r[j] == points[j])
    ensures e.Reweight? && e.index < |points| ==>
              && |r| == |points|
              && r[e.index].Position() == points[e.index].Position()
              && r[e.index].weight == DraggedWeight(e.distance) && r[e.index].weight >= MinWeight
              && (forall j :: 0 <= j < |r| && j != e.index ==> r[j] == points[j])
    ensures !e.Add? && e.index >= |points| ==> r == points
  {
    match e
    case Add(at) => points + [ControlPoint(at.x, at.y, 1.0)]
    case Remove(i) =>
      if i < |points| then points[..i] + points[i + 1..] else points
    case Move(i, to) =>
      if i < |points| then points[i := ControlPoint(to.x, to.y, points[i].weight)] else points
    case Reweight(i, distance) =>
      if i < |points| then points[i := points[i].(weight := DraggedWeight(distance))] else points
  }

  /** A sequence of edits, in order. */
  function SplineEdits(points: seq<ControlPoint>, es: seq<Edit>): (r: seq<ControlPoint>)
    ensures PositiveWeights(points) ==> PositiveWeights(r)
    decreases |es|
  {
    if |es| == 0 then points else SplineEdits(SplineEdit(points, es[0]), es[1..])
  }

  /** Deleting the point just added restores the list. */
  lemma RemoveUndoesAdd(points: seq<ControlPoint>, at: Vec)
    ensures SplineEdit(SplineEdit(points, Add(at)), Remove(|points|)) == points
  {
    var added := SplineEdit(points, Add(at));
    assert added[..|points|] == points;
  }

  /** Moving a point back to where it was restores the list. */
  lemma MoveBack(points: seq<ControlPoint>, i: nat, to: Vec)
    requires i < |points|
    ensures SplineEdit(SplineEdit(points, Move(i, to)), Move(i, points[i].Position())) == points
  {
  }

  /** After any edits from points with positive weights, the curve drawn with
      the knots the editor generates stays in every box holding the edited
      control points, wherever it is defined. */
  lemma EditedCurveInHull(points: seq<ControlPoint>, es: seq<Edit>, degree: nat,
                          clampStart: bool, clampEnd: bool, u: real, lo: Vec, hi: Vec)
    requires PositiveWeights(points)
    requires var r := SplineEdits(points, es);
             && |r| > degree
             && forall i :: 0 <= i < |r| ==> InBox(r[i].Position(), lo, hi)
    ensures var r := SplineEdits(points, es);
            var knots := BuildKnots(|r|, degree, clampStart, clampEnd).value;
            var p := EvaluateBSpline(r, degree, knots, clampStart, clampEnd, u);
            p.Ok? ==> InBox(p.value, lo, hi)
  {
    var r := SplineEdits(points, es);
    var knots := BuildKnots(|r|, degree, clampStart, clampEnd).value;
    KnotsNonDecreasing(|r|, degree, clampStart, clampEnd);
    ClampedEndpoints(r, degree, clampStart, clampEnd);
    forall i | 0 <= i < |r|
      ensures lo.x <= r[i].x <= hi.x && lo.y <= r[i].y <= hi.y
    {
      assert InBox(r[i].Position(), lo, hi);
    }
    EvaluateInHull(r, degree, knots, clampStart, clampEnd, u, lo, hi);
  }

  // ----- the Bezier editor -----

  predicate PositiveNodeWeights(nodes: seq<Node>)
  {
    forall i :: 0 <= i < |nodes| ==> EffectiveWeight(nodes[i]) > 0.0
  }

  /** Apply one edit to the Bezier editor's points. A point added by a click
      has weight 1; a moved point keeps its weight, absent or not. */
  function BezierEdit(nodes: seq<Node>, e: Edit): (r: seq<Node>)
    ensures PositiveNodeWeights(nodes) ==> PositiveNodeWeights(r)
    ensures e.Add? ==> |r| == |nodes| + 1 && r[..|nodes|] == nodes
                       && r[|nodes|].x == e.at.x && r[|nodes|].y == e.at.y
                       && EffectiveWeight(r[|nodes|]) == 1.0
    ensures e.Remove? && e.index < |nodes| ==>
              && |r| == |nodes| - 1
              && (forall j :: 0 <= j < e.index ==> r[j] == nodes[j])
              && (forall j :: e.index <= j < |r| ==> r[j] == nodes[j + 1])
    ensures e.Move? && e.index < |nodes| ==>
              && |r| == |nodes|
              && r[e.index].x == e.to.x && r[e.index].y == e.to.y
              && r[e.index].weight == nodes[e.index].weight
              && (forall j :: 0 <= j < |r| && j != e.index ==> r[j] == nodes[j])
    ensures e.Reweight? && e.index < |nodes| ==>
              && |r| == |nodes|
              && r[e.index].x == nodes[e.index].x && r[e.index].y == nodes[e.index].y
              && r[e.index].weight == Some(DraggedWeight(e.distance))
              && EffectiveWeight(r[e.index]) >= MinWeight
              && (forall j :: 0 <= j < |r| && j != e.index ==> r[j] == nodes[j])
    ensures !e.Add? && e.index >= |nodes| ==> r == nodes
  {
    match e
    case Add(at) => nodes + [Node(at.x, at.y, Some(1.0))]
    case Remove(i) =>
      if i < |nodes| then nodes[..i] + nodes[i + 1..] else nodes
    case Move(i, to) =>
      if i < |nodes| then nodes[i := Node(to.x, to.y, nodes[i].weight)] else nodes
    case Reweight(i, distance) =>
      if i < |nodes| then nodes[i := nodes[i].(weight := Some(DraggedWeight(distance)))] else nodes
  }

  function BezierEdits(nodes: seq<Node>, es: seq<Edit>): (r: seq<Node>)
    ensures PositiveNodeWeights(nodes) ==> PositiveNodeWeights(r)
    decreases |es|
  {
    if |es| == 0 then nodes else BezierEdits(BezierEdit(nodes, es[0]), es[1..])
  }

  /** The smallest bounds holding every point and weight of a non-empty list. */
  function Hull(nodes: seq<Node>): (b: Bounds)
    requires |nodes| >= 1
    ensures AllInside(nodes, b)
    ensures PositiveNodeWeights(nodes) ==> b.wmin > 0.0
    decreases |nodes|
  {
    var p := nodes[|nodes| - 1];
    var w := EffectiveWeight(p);
    if |nodes| == 1 then Bounds(p.x, p.x, p.y, p.y, w, w)
    else
      var b := Hull(nodes[..|nodes| - 1]);
      Bounds(Min(b.xmin, p.x), Max(b.xmax, p.x), Min(b.ymin, p.y), Max(b.ymax, p.y),
             Min(b.wmin, w), Max(b.wmax, w))
  }

  /** `Hull` is the smallest such box: each of its four sides touches a point. */
  lemma {:induction false} HullTight(nodes: seq<Node>)
    requires |nodes| >= 1
    ensures var b := Hull(nodes);
            && (exists i :: 0 <= i < |nodes| && nodes[i].x == b.xmin)
            && (exists i :: 0 <= i < |nodes| && nodes[i].x == b.xmax)
            && (exists i :: 0 <= i < |nodes| && nodes[i].y == b.ymin)
            && (exists i :: 0 <= i < |nodes| && nodes[i].y == b.ymax)
    decreases |nodes|
  {
    var n := |nodes| - 1;
    var b, p := Hull(nodes), nodes[n];
    if n == 0 {
      assert nodes[0].x == b.xmin && nodes[0].y == b.ymin;
    } else {
      var front := nodes[..n];
      var f := Hull(front);
      HullTight(front);
      assert b.xmin == Min(f.xmin, p.x) && b.xmax == Max(f.xmax, p.x);
      assert b.ymin == Min(f.ymin, p.y) && b.ymax == Max(f.ymax, p.y);
      var ix0 :| 0 <= ix0 < n && front[ix0].x == f.xmin;
      var ix1 :| 0 <= ix1 < n && front[ix1].x == f.xmax;
      var iy0 :| 0 <= iy0 < n && front[iy0].y == f.ymin;
      var iy1 :| 0 <= iy1 < n && front[iy1].y == f.ymax;
      assert nodes[if f.xmin <= p.x then ix0 else n].x == b.xmin;
      assert nodes[if f.xmax >= p.x then ix1 else n].x == b.xmax;
      assert nodes[if f.ymin <= p.y then iy0 else n].y == b.ymin;
      assert nodes[if f.ymax >= p.y then iy1 else n].y == b.ymax;
    }
  }

  /** Points added by clicks and moved or reweighted by drags always give a
      Bezier curve that the editor can evaluate at every `t` in `[0, 1]`, and
      the curve point lies in the bounding box of the control points. */
  lemma EditedBezierInHull(nodes: seq<Node>, es: seq<Edit>, t: real)
    requires PositiveNodeWeights(nodes)
    requires |BezierEdits(nodes, es)| >= 1 && 0.0 <= t <= 1.0
    ensures var r := BezierEdits(nodes, es);
            DeCasteljau(r, t).Ok? && Inside(DeCasteljau(r, t).value, Hull(r))
  {
    var r := BezierEdits(nodes, es);
    ConvexHull(r, t, Hull(r));
  }
}

=== FILE: geometry.dfy ===
/** Plane points, interpolation and the real-arithmetic facts the
    evaluators rely on. */
module Geometry {

  /** A point (or vector) of the drawing plane. */
  datatype Vec = Vec(x: real, y: real)

  function Min(a: real, b: real): (m: real)
    ensures m <= a && m <= b && (m == a || m == b)
  {
    if a <= b then a else b
  }

  function Max(a: real, b: real): (m: real)
    ensures a <= m && b <= m && (m == a || m == b)
  {
    if a <= b then b else a
  }

  /** `(1 - alpha) * a + alpha * b` on one coordinate. */
  function Blend(a: real, b: real, alpha: real): real
  {
    (1.0 - alpha) * a + alpha * b
  }

  /** The affine blend of two points, coordinate by coordinate. */
  function Lerp(a: Vec, b: Vec, alpha: real): Vec
  {
    Vec(Blend(a.x, b.x, alpha), Blend(a.y, b.y, alpha))
  }

  /** The blend starts at `a` and ends at `b`. */
  lemma LerpEnds(a: Vec, b: Vec)
    ensures Lerp(a, b, 0.0) == a && Lerp(a, b, 1.0) == b
  {
  }

  /** `Lerp` written out on coordinates. */
  lemma LerpCoordinates(x0: real, y0: real, x1: real, y1: real, t: real)
    ensures Lerp(Vec(x0, y0), Vec(x1, y1), t) == Vec(Blend(x0, x1, t), Blend(y0, y1, t))
  {
    hide Blend;
  }

  /** A blend with `alpha` in `[0, 1]` of two values in `[lo, hi]` stays in `[lo, hi]`. */
  lemma BlendBetween(a: real, b: real, alpha: real, lo: real, hi: real)
    requires 0.0 <= alpha <= 1.0 && lo <= a <= hi && lo <= b <= hi
    ensures lo <= Blend(a, b, alpha) <= hi
  {
    MixBetween(a, b, alpha);
  }

  /** `p` lies in the axis-aligned box from `lo` to `hi`. */
  predicate InBox(p: Vec, lo: Vec, hi: Vec)
  {
    lo.x <= p.x <= hi.x && lo.y <= p.y <= hi.y
  }

  /** A blend with `alpha` in `[0, 1]` of two points in a box stays in the box. */
  lemma LerpInBox(a: Vec, b: Vec, alpha: real, lo: Vec, hi: Vec)
    requires 0.0 <= alpha <= 1.0 && InBox(a, lo, hi) && InBox(b, lo, hi)
    ensures InBox(Lerp(a, b, alpha), lo, hi)
  {
    BlendBetween(a.x, b.x, alpha, lo.x, hi.x);
    BlendBetween(a.y, b.y, alpha, lo.y, hi.y);
  }

  /** Sum of a sequence of reals, left to right. */
  function Sum(s: seq<real>): real
  {
    if |s| == 0 then 0.0 else Sum(s[..|s| - 1]) + s[|s| - 1]
  }

  /** Scaling every term scales the sum. */
  lemma {:induction false} SumScale(s: seq<real>, s': seq<real>, c: real)
    requires |s'| == |s|
    requires forall i :: 0 <= i < |s| ==> s'[i] == c * s[i]
    ensures Sum(s') == c * Sum(s)
  {
    if |s| > 0 {
      SumScale(s[..|s| - 1], s'[..|s| - 1], c);
    }
  }

  /** Sums of pointwise equal sequences agree. */
  lemma SumPointwise(s: seq<real>, s': seq<real>)
    requires |s'| == |s|
    requires forall i :: 0 <= i < |s| ==> s'[i] == s[i]
    ensures Sum(s') == Sum(s)
  {
    assert s' == s;
  }

  /** The sum of non-negative terms is non-negative. */
  lemma {:induction false} SumNonNegative(s: seq<real>)
    requires forall i :: 0 <= i < |s| ==> s[i] >= 0.0
    ensures Sum(s) >= 0.0
  {
    if |s| > 0 {
      SumNonNegative(s[..|s| - 1]);
    }
  }

  /** A sum of non-negative terms one of which is positive is positive. */
  lemma {:induction false} SumPositive(s: seq<real>, i: nat)
    requires i < |s| && s[i] > 0.0
    requires forall j :: 0 <= j < |s| ==> s[j] >= 0.0
    ensures Sum(s) > 0.0
  {
    var n := |s| - 1;
    SumNonNegative(s[..n]);
    if i < n {
      SumPositive(s[..n], i);
    }
  }

  /** Dividing numerator and denominator by the same non-zero factor. */
  lemma CancelFactor(n: real, d: real, c: real)
    requires d != 0.0 && c != 0.0
    ensures (c * n) / (c * d) == n / d
  {
    var q := n / d;
    assert n == q * d;
    assert c * n == q * (c * d);
  }

  /** `a / d` is monotone in `a` for a positive `d`. */
  lemma DivMonotone(a: real, b: real, d: real)
    requires a <= b && d > 0.0
    ensures a / d <= b / d
  {
    assert b / d - a / d == (b - a) / d;
  }

  /** `a / d` is strictly monotone in `a` for a positive `d`. */
  lemma DivStrict(a: real, b: real, d: real)
    requires a < b && d > 0.0
    ensures a / d < b / d
  {
    assert b / d - a / d == (b - a) / d;
  }

  /** A fraction `a / d` with `0 <= a <= d` lies in the unit interval, and is 1 when `a == d`. */
  lemma FractionInUnit(a: real, d: real)
    requires 0.0 <= a <= d && d > 0.0
    ensures 0.0 <= a / d <= 1.0
    ensures a == d ==> a / d == 1.0
  {
    DivMonotone(a, d, d);
  }

  /** Multiplying by and then dividing by the same non-zero factor. */
  lemma MulDiv(x: real, s: real)
    requires s != 0.0
    ensures (x * s) / s == x
  {
  }

  /** `lo <= n / s` from `lo * s <= n` for a positive `s`. */
  lemma LowerBoundDiv(lo: real, n: real, s: real)
    requires s > 0.0 && lo * s <= n
    ensures lo <= n / s
  {
    DivMonotone(lo * s, n, s);
    MulDiv(lo, s);
  }

  /** `n / s <= hi` from `n <= hi * s` for a positive `s`. */
  lemma UpperBoundDiv(hi: real, n: real, s: real)
    requires s > 0.0 && n <= hi * s
    ensures n / s <= hi
  {
    DivMonotone(n, hi * s, s);
    MulDiv(hi, s);
  }

  /** Multiplying by a non-negative factor keeps the order. */
  lemma MulMonotone(f: real, a: real, b: real)
    requires f >= 0.0 && a <= b
    ensures f * a <= f * b
  {
    MulNonNegative(f, b - a);
  }

  /** The product of non-negative reals is non-negative. */
  lemma MulNonNegative(a: real, b: real)
    requires a >= 0.0 && b >= 0.0
    ensures a * b >= 0.0
  {
  }

  /** The product of non-zero reals is non-zero. */
  lemma MulNonZero(a: real, b: real)
    requires a != 0.0 && b != 0.0
    ensures a * b != 0.0
  {
  }

  /** `(1 - t) * a + t * b` lies between `a` and `b` for 0 <= t <= 1. */
  lemma MixBetween(a: real, b: real, t: real)
    requires 0.0 <= t <= 1.0
    ensures Min(a, b) <= (1.0 - t) * a + t * b <= Max(a, b)
  {
    assert (1.0 - t) * a + t * b == a + t * (b - a);
    assert (1.0 - t) * a + t * b == b - (1.0 - t) * (b - a);
    if a <= b {
      MulNonNegative(t, b - a);
      MulNonNegative(1.0 - t, b - a);
    } else {
      MulNonNegative(t, a - b);
      MulNonNegative(1.0 - t, a - b);
    }
  }

  /** A normalised combination of `a` and `b` with non-negative coefficients
      lies between them. */
  lemma WeightedMeanBetween(a: real, b: real, p: real, q: real)
    requires p >= 0.0 && q >= 0.0 && p + q > 0.0
    ensures Min(a, b) <= (p * a + q * b) / (p + q) <= Max(a, b)
  {
    var s, n := p + q, p * a + q * b;
    var lo, hi := Min(a, b), Max(a, b);
    assert n - lo * s == p * (a - lo) + q * (b - lo);
    assert hi * s - n == p * (hi - a) + q * (hi - b);
    LowerBoundDiv(lo, n, s);
    UpperBoundDiv(hi, n, s);
  }
}

=== FILE: knots.dfy ===
/** The knot vector the B-spline editor derives from the number of control
    points, the degree and the two clamp switches (`updateKnots` in
    playground/bspline/bspline.js). */
module Knots {
  import opened Results
  import opened Geometry

  /** Every knot is at most the knots after it. */
  predicate NonDecreasing(s: seq<real>)
  {
    forall i, j :: 0 <= i < j < |s| ==> s[i] <= s[j]
  }

  /** `n` copies of `v`. */
  function Repeat(v: real, n: nat): (r: seq<real>)
    ensures |r| == n
    ensures forall i :: 0 <= i < n ==> r[i] == v
  {
    seq(n, _ => v)
  }

  /** `len` evenly spaced values `from / d, (from + 1) / d, ...`. */
  function Ramp(from: nat, len: nat, d: nat): (r: seq<real>)
    requires len > 0 ==> d > 0
    ensures |r| == len
    ensures forall j :: 0 <= j < len ==> r[j] == (from + j) as real / d as real
  {
    seq(len, j requires 0 <= j < len => (from + j) as real / d as real)
  }

  /** The knot vector for `count` control points of degree `degree`.
      Both ends clamped: `degree + 1` zeros, the interior values
      `i / (count - degree)` and `degree + 1` ones. One end clamped: that end
      repeated `degree + 1` times and `count` uniform values over the other
      part. Neither: `count + degree + 1` uniform values from 0 to 1, which
      divides 0 by 0 when there are no points and the degree is 0. */
  function BuildKnots(count: nat, degree: nat, clampStart: bool, clampEnd: bool): (r: Result<seq<real>>)
    ensures r.Err? <==> !clampStart && !clampEnd && count + degree == 0
    ensures r.Err? ==> r.failure == ZeroDivisor
    ensures r.Ok? && clampStart && clampEnd && count <= degree ==> |r.value| == 2 * degree + 2
    ensures r.Ok? && !(clampStart && clampEnd && count <= degree) ==> |r.value| == count + degree + 1
  {
    if clampStart && clampEnd then
      var interior := if count > degree + 1 then count - degree - 1 else 0;
      Ok(Repeat(0.0, degree + 1) + Ramp(1, interior, interior + 1) + Repeat(1.0, degree + 1))
    else if clampStart then
      Ok(Repeat(0.0, degree + 1) + Ramp(1, count, count))
    else if clampEnd then
      Ok(Ramp(0, count, count) + Repeat(1.0, degree + 1))
    else if count + degree == 0 then
      Err(ZeroDivisor)
    else
      Ok(Ramp(0, count + degree + 1, count + degree))
  }

  // ----- ordering -----

  lemma ConcatNonDecreasing(a: seq<real>, b: seq<real>)
    requires NonDecreasing(a) && NonDecreasing(b)
    requires |a| > 0 && |b| > 0 ==> a[|a| - 1] <= b[0]
    ensures NonDecreasing(a + b)
  {
    forall i, j | 0 <= i < j < |a + b|
      ensures (a + b)[i] <= (a + b)[j]
    {
      if j >= |a| && i < |a| {
        assert a[i] <= a[|a| - 1];
        assert b[0] <= b[j - |a|];
      }
    }
  }

  lemma RampIncreasing(from: nat, len: nat, d: nat)
    requires len > 0 ==> d > 0
    ensures forall i, j :: 0 <= i < j < len ==> Ramp(from, len, d)[i] < Ramp(from, len, d)[j]
  {
    var r := Ramp(from, len, d);
    forall i, j | 0 <= i < j < len
      ensures r[i] < r[j]
    {
      DivStrict((from + i) as real, (from + j) as real, d as real);
    }
  }

  /** Every value of a ramp that ends at or below `d / d` lies in [0, 1]. */
  lemma RampInUnit(from: nat, len: nat, d: nat)
    requires len > 0 ==> d > 0
    requires from + len <= d + 1
    ensures forall j :: 0 <= j < len ==> 0.0 <= Ramp(from, len, d)[j] <= 1.0
  {
    forall j | 0 <= j < len
      ensures 0.0 <= Ramp(from, len, d)[j] <= 1.0
    {
      FractionInUnit((from + j) as real, d as real);
    }
  }

  /** The knot vector never decreases. */
  lemma KnotsNonDecreasing(count: nat, degree: nat, clampStart: bool, clampEnd: bool)
    requires BuildKnots(count, degree, clampStart, clampEnd).Ok?
    ensures NonDecreasing(BuildKnots(count, degree, clampStart, clampEnd).value)
  {
    var zeros, ones := Repeat(0.0, degree + 1), Repeat(1.0, degree + 1);
    if clampStart && clampEnd {
      var interior := if count > degree + 1 then count - degree - 1 else 0;
      var mid := Ramp(1, interior, interior + 1);
      RampIncreasing(1, interior, interior + 1);
      RampInUnit(1, interior, interior + 1);
      ConcatNonDecreasing(zeros, mid);
      ConcatNonDecreasing(zeros + mid, ones);
    } else if clampStart {
      RampIncreasing(1, count, count);
      RampInUnit(1, count, count);
      ConcatNonDecreasing(zeros, Ramp(1, count, count));
    } else if clampEnd {
      RampIncreasing(0, count, count);
      RampInUnit(0, count, count);
      ConcatNonDecreasing(Ramp(0, count, count), ones);
    } else {
      RampIncreasing(0, count + degree + 1, count + degree);
    }
  }

  /** Every knot lies in [0, 1]. */
  lemma KnotsInUnit(count: nat, degree: nat, clampStart: bool, clampEnd: bool)
    requires BuildKnots(count, degree, clampStart, clampEnd).Ok?
    ensures forall i :: 0 <= i < |BuildKnots(count, degree, clampStart, clampEnd).value| ==>
              0.0 <= BuildKnots(count, degree, clampStart, clampEnd).value[i] <= 1.0
  {
    if clampStart && clampEnd {
      var interior := if count > degree + 1 then count - degree - 1 else 0;
      RampInUnit(1, interior, interior + 1);
    } else if clampStart {
      RampInUnit(1, count, count);
    } else if clampEnd {
      RampInUnit(0, count, count);
    } else {
      RampInUnit(0, count + degree + 1, count + degree);
    }
  }

  /** With at least one control point the vector runs from 0 to 1. */
  lemma KnotsFromZeroToOne(count: nat, degree: nat, clampStart: bool, clampEnd: bool)
    requires count >= 1
    ensures BuildKnots(count, degree, clampStart, clampEnd).Ok?
    ensures BuildKnots(count, degree, clampStart, clampEnd).value[0] == 0.0
    ensures var k := BuildKnots(count, degree, clampStart, clampEnd).value; k[|k| - 1] == 1.0
  {
    var k := BuildKnots(count, degree, clampStart, clampEnd).value;
    if !clampStart && clampEnd {
      assert k[0] == Ramp(0, count, count)[0];
    } else if !clampStart && !clampEnd {
      FractionInUnit((count + degree) as real, (count + degree) as real);
    }
    if clampStart && !clampEnd {
      FractionInUnit(count as real, count as real);
      assert k[|k| - 1] == Ramp(1, count, count)[count - 1];
    }
  }

  /** A clamped end repeats its boundary value exactly `degree + 1` times. */
  lemma ClampedMultiplicity(count: nat, degree: nat, clampStart: bool, clampEnd: bool)
    requires count >= 1
    ensures var k := BuildKnots(count, degree, clampStart, clampEnd).value;
              && (clampStart ==> (forall i :: 0 <= i <= degree ==> k[i] == 0.0) && k[degree + 1] > 0.0)
              && (clampEnd ==> (forall i :: |k| - 1 - degree <= i < |k| ==> k[i] == 1.0)
                               && k[|k| - degree - 2] < 1.0)
  {
    if clampStart && clampEnd {
      ClampedBothEnds(count, degree);
    } else if clampStart {
      var k := BuildKnots(count, degree, clampStart, clampEnd).value;
      assert k[degree + 1] == Ramp(1, count, count)[0];
      DivStrict(0.0, 1.0, count as real);
    } else if clampEnd {
      var k := BuildKnots(count, degree, clampStart, clampEnd).value;
      assert k[|k| - degree - 2] == Ramp(0, count, count)[count - 1];
      DivStrict((count - 1) as real, count as real, count as real);
    }
  }

  lemma ClampedBothEnds(count: nat, degree: nat)
    requires count >= 1
    ensures var k := BuildKnots(count, degree, true, true).value;
              && k[degree + 1] > 0.0
              && k[|k| - degree - 2] < 1.0
  {
    var k := BuildKnots(count, degree, true, true).value;
    var interior := if count > degree + 1 then count - degree - 1 else 0;
    var mid := Ramp(1, interior, interior + 1);
    if interior > 0 {
      assert k[degree + 1] == mid[0];
      DivStrict(0.0, 1.0, (interior + 1) as real);
      assert k[|k| - degree - 2] == mid[interior - 1];
      DivStrict(interior as real, (interior + 1) as real, (interior + 1) as real);
    }
  }

  /** Without clamping the knots are the uniform grid `i / (count + degree)`. */
  lemma UniformKnots(count: nat, degree: nat)
    requires count + degree > 0
    ensures var k := BuildKnots(count, degree, false, false).value;
              forall i :: 0 <= i < |k| ==> k[i] == i as real / (count + degree) as real
  {
  }

  /** The knots at the indices `degree .. count`, which bound the evaluation
      domain, lie on an evenly spaced grid `(i - o) / d` that starts at
      index `o` with the value 0: so every span of the domain has length `1 / d`. */
  lemma DomainKnots(count: nat, degree: nat, clampStart: bool, clampEnd: bool) returns (o: nat, d: nat)
    requires count > degree
    ensures d > 0 && o <= degree && count <= o + d
    ensures clampEnd ==> o + d == count
    ensures !clampEnd ==> o + d == count + degree
    ensures var k := BuildKnots(count, degree, clampStart, clampEnd).value;
              && o + d < |k|
              && forall i :: o <= i <= o + d ==> k[i] == (i - o) as real / d as real
  {
    if clampStart && clampEnd {
      o, d := degree, count - degree;
      ClampedBothGrid(count, degree);
    } else if clampStart {
      o, d := degree, count;
      ClampedStartGrid(count, degree);
    } else if clampEnd {
      o, d := 0, count;
      ClampedEndGrid(count, degree);
    } else {
      o, d := 0, count + degree;
    }
  }

  lemma ClampedBothGrid(count: nat, degree: nat)
    requires count > degree
    ensures var k := BuildKnots(count, degree, true, true).value;
              forall i :: degree <= i <= count ==> k[i] == (i - degree) as real / (count - degree) as real
  {
    var k := BuildKnots(count, degree, true, true).value;
    var interior := count - degree - 1;
    var mid := Ramp(1, interior, interior + 1);
    assert k == Repeat(0.0, degree + 1) + mid + Repeat(1.0, degree + 1);
    forall i | degree <= i <= count
      ensures k[i] == (i - degree) as real / (count - degree) as real
    {
      if i == count {
        FractionInUnit((count - degree) as real, (count - degree) as real);
      } else if i > degree {
        assert k[i] == mid[i - degree - 1];
      }
    }
  }

  lemma ClampedStartGrid(count: nat, degree: nat)
    requires count > degree
    ensures var k := BuildKnots(count, degree, true, false).value;
              forall i :: degree <= i <= degree + count ==> k[i] == (i - degree) as real / count as real
  {
    var k := BuildKnots(count, degree, true, false).value;
    forall i | degree <= i <= degree + count
      ensures k[i] == (i - degree) as real / count as real
    {
      if i > degree {
        assert k[i] == Ramp(1, count, count)[i - degree - 1];
      }
    }
  }

  lemma ClampedEndGrid(count: nat, degree: nat)
    requires count > degree
    ensures var k := BuildKnots(count, degree, false, true).value;
              forall i :: 0 <= i <= count ==> k[i] == i as real / count as real
  {
    var k := BuildKnots(count, degree, false, true).value;
    forall i | 0 <= i <= count
      ensures k[i] == i as real / count as real
    {
      if i == count {
        FractionInUnit(count as real, count as real);
      } else {
        assert k[i] == Ramp(0, count, count)[i];
      }
    }
  }

  /** Every knot span inside the evaluation domain has positive length. */
  lemma DomainSpansNonEmpty(count: nat, degree: nat, clampStart: bool, clampEnd: bool)
    requires count > degree
    ensures var k := BuildKnots(count, degree, clampStart, clampEnd).value;
              forall i :: degree <= i < count ==> k[i] < k[i + 1]
  {
    var k := BuildKnots(count, degree, clampStart, clampEnd).value;
    var o, d := DomainKnots(count, degree, clampStart, clampEnd);
    forall i | degree <= i < count
      ensures k[i] < k[i + 1]
    {
      DivStrict((i - o) as real, (i + 1 - o) as real, d as real);
    }
  }

  /** The end `knots[count]` of the domain: with a clamped end it is the last
      knot, otherwise the next knot lies strictly beyond it once the degree is
      at least 1. */
  lemma DomainEnd(count: nat, degree: nat, clampStart: bool, clampEnd: bool)
    requires count > degree >= 1
    ensures var k := BuildKnots(count, degree, clampStart, clampEnd).value;
              && count + 1 < |k|
              && (clampEnd ==> k[count] == k[|k| - 1])
              && (!clampEnd ==> k[count] < k[count + 1])
  {
    var o, d := DomainKnots(count, degree, clampStart, clampEnd);
    if clampEnd {
      ClampedMultiplicity(count, degree, clampStart, clampEnd);
    } else {
      DivStrict((count - o) as real, (count + 1 - o) as real, d as real);
    }
  }

  /** Four points of degree 3 clamped at both ends give eight knots, four 0s then four 1s. */
  lemma ClampedCubicKnots()
    ensures BuildKnots(4, 3, true, true) == Ok([0.0, 0.0, 0.0, 0.0, 1.0, 1.0, 1.0, 1.0])
  {
    var k := BuildKnots(4, 3, true, true).value;
    assert |k| == 8;
    assert k == [k[0], k[1], k[2], k[3], k[4], k[5], k[6], k[7]];
  }

  /** Five points of degree 2 without clamping give the eight knots `i / 7`. */
  lemma UniformQuadraticKnots()
    ensures BuildKnots(5, 2, false, false)
            == Ok([0.0, 1.0 / 7.0, 2.0 / 7.0, 3.0 / 7.0, 4.0 / 7.0, 5.0 / 7.0, 6.0 / 7.0, 1.0])
  {
    var k := BuildKnots(5, 2, false, false).value;
    assert k == Ramp(0, 8, 7);
    assert k[7] == 7.0 / 7.0 == 1.0;
    assert k == [k[0], k[1], k[2], k[3], k[4], k[5], k[6], k[7]];
  }
}

=== FILE: results.dfy ===
/** Outcome types shared by the curve evaluators.

    The editors return `null` (or let a zero divisor turn into NaN) where a
    curve point is undefined; here every such case is an explicit failure. */
module Results {

  /** An optional value, used for a control point's weight that may be absent. */
  datatype Option<+T> = None | Some(value: T)

  /** Why an evaluation produced no point. */
  datatype Failure =
    | NoKnots        // the knot vector is empty
    | TooFewPoints   // fewer than degree + 1 control points
    | OutOfRange     // the parameter lies outside the valid knot range
    | ZeroDivisor    // a weight sum, basis sum or knot difference is zero

  /** A computed value or the reason there is none. */
  datatype Result<+T> = Ok(value: T) | Err(failure: Failure)
}

=== FILE: viewport.dfy ===
/** The viewport of the editors: scene points are drawn at
    `p * scale + offset`, and the mouse wheel rescales about the cursor. The
    B-spline editor also pans with a middle-button drag; the Bézier editor
    only zooms, and only while it has points. */
module Viewport {
  import opened Geometry

  datatype View = View(scale: real, offset: Vec)

  /** Bounds on the zoom factor. */
  const MinScale: real := 0.1
  const MaxScale: real := 10.0
  /** Wheel factors: rolling away from the user zooms out, towards zooms in. */
  const ZoomOutFactor: real := 0.9
  const ZoomInFactor: real := 1.1

  /** The view the editors start with. */
  const InitialView: View := View(1.0, Vec(0.0, 0.0))

  /** Scene coordinates to screen coordinates. */
  function Transform(v: View, p: Vec): Vec
  {
    Vec(p.x * v.scale + v.offset.x, p.y * v.scale + v.offset.y)
  }

  /** Screen coordinates to scene coordinates. */
  function Inverse(v: View, q: Vec): Vec
    requires v.scale != 0.0
  {
    Vec((q.x - v.offset.x) / v.scale, (q.y - v.offset.y) / v.scale)
  }

  /** Mapping a scene point to the screen and back returns it unchanged. */
  lemma InverseOfTransform(v: View, p: Vec)
    requires v.scale != 0.0
    ensures Inverse(v, Transform(v, p)) == p
  {
    MulDiv(p.x, v.scale);
    MulDiv(p.y, v.scale);
  }

  /** Mapping a screen point to the scene and back returns it unchanged. */
  lemma TransformOfInverse(v: View, q: Vec)
    requires v.scale != 0.0
    ensures Transform(v, Inverse(v, q)) == q
  {
    DivMul(q.x - v.offset.x, v.scale);
    DivMul(q.y - v.offset.y, v.scale);
  }

  /** Dividing by a non-zero scale and multiplying back is the identity. */
  lemma DivMul(n: real, s: real)
    requires s != 0.0
    ensures (n / s) * s == n
  {
  }

  /** `Math.min(Math.max(0.1, s), 10)`. */
  function ClampScale(s: real): (c: real)
    ensures MinScale <= c <= MaxScale
    ensures MinScale <= s <= MaxScale ==> c == s
    ensures s < MinScale ==> c == MinScale
    ensures s > MaxScale ==> c == MaxScale
  {
    Min(Max(MinScale, s), MaxScale)
  }

  /** The wheel zoom about the screen point `mouse`: the scale is multiplied by
      0.9 for a positive `deltaY` and by 1.1 otherwise, then clamped, and the
      offset is chosen so that the scene point under the cursor stays there. */
  function Zoom(v: View, mouse: Vec, deltaY: real): (w: View)
    requires v.scale != 0.0
    ensures MinScale <= w.scale <= MaxScale
  {
    var start := Inverse(v, mouse);
    var scale := ClampScale(v.scale * (if deltaY > 0.0 then ZoomOutFactor else ZoomInFactor));
    View(scale, Vec(mouse.x - start.x * scale, mouse.y - start.y * scale))
  }

  /** The scene point under the cursor is the same before and after a zoom. */
  lemma ZoomKeepsCursor(v: View, mouse: Vec, deltaY: real)
    requires v.scale != 0.0
    ensures var w := Zoom(v, mouse, deltaY);
              && Inverse(w, mouse) == Inverse(v, mouse)
              && Transform(w, Inverse(v, mouse)) == mouse
  {
    var start := Inverse(v, mouse);
    var w := Zoom(v, mouse, deltaY);
    MulDiv(start.x, w.scale);
    MulDiv(start.y, w.scale);
  }

  /** Within the scale bounds, rolling away never enlarges the view and rolling
      towards never shrinks it. */
  lemma ZoomDirection(v: View, mouse: Vec, deltaY: real)
    requires MinScale <= v.scale <= MaxScale
    ensures deltaY > 0.0 ==> Zoom(v, mouse, deltaY).scale <= v.scale
    ensures deltaY <= 0.0 ==> Zoom(v, mouse, deltaY).scale >= v.scale
  {
  }

  /** The Bézier editor ignores the wheel while it has no control points. */
  function BezierWheel(v: View, pointCount: nat, mouse: Vec, deltaY: real): (w: View)
    requires v.scale != 0.0
    ensures pointCount == 0 ==> w == v
    ensures pointCount > 0 ==> MinScale <= w.scale <= MaxScale && Inverse(w, mouse) == Inverse(v, mouse)
  {
    if pointCount == 0 then v
    else
      ZoomKeepsCursor(v, mouse, deltaY);
      Zoom(v, mouse, deltaY)
  }

  /** A middle-button drag from `last` to `current` shifts the offset by the
      mouse movement. */
  function Pan(v: View, last: Vec, current: Vec): (w: View)
    ensures w.scale == v.scale
  {
    View(v.scale, Vec(v.offset.x + (current.x - last.x), v.offset.y + (current.y - last.y)))
  }

  /** Panning moves the image of every scene point by exactly the mouse movement. */
  lemma PanMovesImage(v: View, last: Vec, current: Vec, p: Vec)
    ensures Transform(Pan(v, last, current), p)
            == Vec(Transform(v, p).x + (current.x - last.x), Transform(v, p).y + (current.y - last.y))
  {
  }

  /** A user gesture on the canvas: a wheel turn at `mouse`, or a pan drag. */
  datatype Gesture = Wheel(mouse: Vec, deltaY: real) | Drag(last: Vec, current: Vec)

  function Apply(v: View, g: Gesture): View
    requires v.scale != 0.0
  {
    match g
    case Wheel(mouse, deltaY) => Zoom(v, mouse, deltaY)
    case Drag(last, current) => Pan(v, last, current)
  }

  /** Any sequence of zooms and pans from a view inside the bounds stays
      inside them, so the inverse transform never divides by zero. */
  function ApplyAll(v: View, gs: seq<Gesture>): (w: View)
    requires MinScale <= v.scale <= MaxScale
    ensures MinScale <= w.scale <= MaxScale
    decreases |gs|
  {
    if |gs| == 0 then v else ApplyAll(Apply(v, gs[0]), gs[1..])
  }

  /** The editors start at the identity view, which lies inside the bounds. */
  lemma InitialViewInBounds()
    ensures MinScale <= InitialView.scale <= MaxScale
    ensures forall p :: Transform(InitialView, p) == p
  {
  }
}
